=== FILE: README.md ===
# FileUtil staged mutations, recursive listing and path strings, in Dafny

This project models the core of Syncany's `org.syncany.util.FileUtil`. It has
three parts.

- **Staged ("via-temp") mutations.** These are `renameVia`, `deleteVia`,
  `mkdirVia` and `mkdirsVia`. Each does its work through a sibling staging path
  (the target's parent, plus the prefix, plus the target's name), so the
  change becomes visible in a single rename. Their helper is
  `deleteRecursively`. The one-argument overloads (`Staged.RenameViaDefault`
  and its siblings) pass fixed prefixes such as ".ignore-rename-to-".
- **Recursive listing.** These are `getRecursiveFileList` and
  `getRecursiveFileListNoSort`: a depth-first collection of the nodes below a
  directory, filtered by `includeDirectories`, then sorted. The one-argument
  `getRecursiveFileList` lists files only.
- **Path-string helpers.** These are `getExtension`, `getBasename`,
  `getAbsoluteParentDirectory(String)` and `getRelativePath`, with `'/'` as
  the separator.

The filesystem (module `Fs`) is an immutable map from a path to a node.

- A path is a sequence of names; the empty sequence is the root.
- A node is `File(content)` or `Dir`.
- A well-formed tree has a root directory, and every other node hangs below a
  directory under a valid name.

The `java.io.File` primitives are pure functions from a `Disk` to a
`Step(disk, ok)`:

- `delete` removes a node with nothing below it;
- `mkdir` creates a directory under an existing directory;
- `renameTo` moves a node and its whole subtree to an absent path.

A `Disk` pairs the tree with a fault oracle, a sequence of booleans. Each
primitive consumes one entry, and `true` makes that call fail. A failed
primitive changes nothing. This stands for every reason the operating system
may refuse a call. Lemmas without a `FaultFree` requirement hold for every
fault pattern. The following lemmas require a fault-free oracle:

- the "succeeds" lemmas;
- `Staged.RenameViaRollsBack` and `Staged.DeleteViaRollsBack`;
- `Staged.RenameViaFromStaging` and `Staged.DeleteViaEmptyPrefixDeletes`;
- the two `*Rerun*` lemmas;
- `Staged.MkdirViaFailureClearsOwn`, `Staged.MkdirsViaFailureClearsStaging` and the staging clause of `Staged.MkdirsViaFailure`;
- `Resume.RenameViaResumingCommits` and `Resume.DeleteViaResumingCommits`.

The `*AfterRefusal` lemmas cover rollback after a refused commit under any
fault pattern. They require only that the rename back is not itself refused. Likewise
`Staged.MkdirViaRemovesStaging` requires only that mkdirVia's clean-up
`delete()` draws no fault.

`File.exists()` is membership in the map. `listFiles()` is `Fs.ListFiles`,
which lists a directory's entry names in ascending order.

Modules:

- `results.dfy`: `Option` and `Result`.
- `seqs.dfy`: sequences without repeated elements.
- `lex.dfy`: the order of `String.compareTo`, insertion sort, sorted set
  elements.
- `fs.dfy`: the tree and the primitives.
- `staged.dfy`: the four `*Via` operations and `deleteRecursively`.
- `resume.dfy`: `renameVia` and `deleteVia` as the staging protocol intends
  them after an interruption (see "## Findings").
- `walker.dfy`: the recursive listing.
- `pathnames.dfy`: the string helpers.

## Model

| member | source | states |
|---|---|---|
| Fs.Delete | src/org/syncany/util/FileUtil.java:200 | `File.delete()` succeeds exactly when no fault is injected and the path is a present non-root node with nothing below it. On success, exactly that key is gone and every other node is unchanged. On failure, the tree is unchanged. |
| Fs.Mkdir | src/org/syncany/util/FileUtil.java:234 | `File.mkdir()` succeeds exactly when no fault is injected, the path is absent, its parent is a directory and its name is valid. It then adds one empty directory. On failure, nothing changes. |
| Fs.Rename | src/org/syncany/util/FileUtil.java:176-181 | `File.renameTo()` succeeds exactly when no fault is injected, the source exists and is not the root, and the target is absent, valid, under a directory and not inside the source. The target then holds the source's whole former subtree, the source is gone, and nothing outside the two subtrees changes. On failure, nothing changes. |
| Fs.ListFiles | src/org/syncany/util/FileUtil.java:97 | `listFiles()` returns exactly the names of the directory's children, each once, in ascending order. |
| Staged.DeleteRecursively | src/org/syncany/util/FileUtil.java:360-373 | A true result means the path and everything below it are absent. A false result on a present path leaves the path present. Nothing outside the path's subtree changes, and nodes are only ever removed. |
| Staged.DeleteChildren | src/org/syncany/util/FileUtil.java:364-369 | Success means every listed child's subtree is gone. On the first failing child, every later sibling's subtree is exactly as before (the `&&` short-circuit), and the directory itself stays. |
| Staged.DeleteChildrenStopsAtFirstFailure | src/org/syncany/util/FileUtil.java:364-369 | When every listed child is present and the loop returns false, some listed child is still present and every child listed before it is gone: the loop stopped at that child. |
| Staged.DeleteRecursivelySucceeds | src/org/syncany/util/FileUtil.java:360-373 | Without injected faults, deleting any present non-root node returns true. |
| Staged.RenameVia | src/org/syncany/util/FileUtil.java:172-185 | Whatever it returns, only the subtrees of the source, the target and the staging path can change. |
| Staged.RenameViaMoves | src/org/syncany/util/FileUtil.java:172-185 | A true result means the target holds exactly the source's former subtree, the source is gone (when it differs from the target), and nothing is left at or below the staging path. |
| Staged.RenameViaFailureLosesNothing | src/org/syncany/util/FileUtil.java:176-183 | After a false result, either nothing outside the staging path changed, or the source's former subtree sits at the staging path (the rollback rename itself failed) and nothing outside the source and the staging path changed, the target included. The first case does not cover content that the clean-up removed from the staging path. |
| Staged.RenameViaFailureKeepsSource | src/org/syncany/util/FileUtil.java:172-185 | When the source and the staging path are disjoint, a false result leaves the source's former subtree either back at the source or at the staging path. |
| Staged.CommitStagedRollsBack | src/org/syncany/util/FileUtil.java:180-183 | When the commit rename is refused, for any reason, and the rename back is not refused by a fault, the result is false. The source then holds exactly the staged subtree, the staging path is empty, and nothing else changes. |
| Staged.RenameViaRollsBackAfterRefusal | src/org/syncany/util/FileUtil.java:172-185 | After a successful staging rename, a refused commit followed by an unfaulted rename back gives false with everything but the cleared staging path as before, whatever the rest of the fault oracle holds. |
| Staged.RenameViaRollsBack | src/org/syncany/util/FileUtil.java:180-183 | Without injected faults, a false result leaves everything but the cleared staging path as it was. |
| Staged.RenameViaStageFailure | src/org/syncany/util/FileUtil.java:174-178 | If the first rename fails, the result is false and only the staging path was cleared. The source keeps its whole subtree whenever it and the staging path are disjoint. |
| Staged.RenameViaStageFailureKeepsTarget | src/org/syncany/util/FileUtil.java:173-178 | If the first rename fails and the prefix is non-empty, the target keeps its whole subtree. |
| Staged.RenameViaFromStaging | src/org/syncany/util/FileUtil.java:173-178 | When the source lies at or below the staging path, the clean-up deletes it: the result is false and both the source and the staging path are gone. |
| Staged.RenameViaSucceeds | src/org/syncany/util/FileUtil.java:172-185 | Without injected faults, the result is true for a present non-root source and an absent target under a directory with a valid name. The staging name must be valid and the staging path must lie neither inside nor above the source. |
| Staged.RenameViaRerunDiscardsStaged | src/org/syncany/util/FileUtil.java:173-178 | As written, re-running a renameVia stopped after its staging rename (source absent, staging path present) returns false and deletes the staged content. |
| Staged.DeleteVia | src/org/syncany/util/FileUtil.java:192-206 | A true result means both the path and its staging path are absent, and the tree stays well formed. |
| Staged.DeleteViaFrame | src/org/syncany/util/FileUtil.java:192-206 | Whatever the result, nothing outside the path's subtree and the staging path's subtree changes. |
| Staged.DeleteViaKeepsNonEmptyDir | src/org/syncany/util/FileUtil.java:200-204 | A directory with anything in it always yields false, because the commit is a non-recursive `delete()`. |
| Staged.DeleteViaFailureLosesNothing | src/org/syncany/util/FileUtil.java:196-204 | After a false result, either nothing outside the staging path changed, or the path's former subtree sits at the staging path and nothing outside the path and the staging path changed. The first case does not cover content that the clean-up removed from the staging path. |
| Staged.DeleteViaFailureKeepsContent | src/org/syncany/util/FileUtil.java:192-206 | With a non-empty prefix, a false result leaves the path's former subtree either back at the path or at the staging path. |
| Staged.DeleteViaEmptyPrefixDeletes | src/org/syncany/util/FileUtil.java:193-198 | With the empty prefix the staging path is the path itself: without faults, the clean-up deletes it with its whole subtree, and the result is false. |
| Staged.DeleteViaSucceeds | src/org/syncany/util/FileUtil.java:192-206 | Without injected faults, the result is true for a present non-root file or empty directory whose staging name is valid and differs from its name. |
| Staged.DeleteViaRerunReportsFailure | src/org/syncany/util/FileUtil.java:193-198 | As written, re-running a deleteVia stopped after its staging rename (path absent, staging path present) clears the staging path but returns false. |
| Staged.DeleteStagedRollsBack | src/org/syncany/util/FileUtil.java:200-204 | When the `delete()` of the staging path is refused, for any reason, and the rename back is not refused by a fault, the result is false. The path then holds exactly the staged subtree, the staging path is empty, and nothing else changes. |
| Staged.DeleteViaRollsBackAfterRefusal | src/org/syncany/util/FileUtil.java:192-206 | After a successful staging rename, a refused `delete()` followed by an unfaulted rename back gives false with everything but the cleared staging path as before, whatever the rest of the fault oracle holds. |
| Staged.DeleteViaRollsBack | src/org/syncany/util/FileUtil.java:200-204 | Without injected faults, a false result restores everything but the staging path. |
| Staged.MkdirVia | src/org/syncany/util/FileUtil.java:213-230 | An existing `folder` gives true with nothing changed (idempotent). An absent `folder` with a missing parent gives false with nothing changed. |
| Staged.MkdirViaCreates | src/org/syncany/util/FileUtil.java:231-243 | A true result for an absent `folder` means it is now an empty directory, the staging path is absent, and nothing else changed. |
| Staged.MkdirViaFailure | src/org/syncany/util/FileUtil.java:232-241 | A false result changes nothing but the staging path. With a non-empty prefix, `folder` was not created. What the clean-up `delete()` leaves is stated by `Staged.MkdirViaRemovesStaging`. |
| Staged.MkdirViaRemovesStaging | src/org/syncany/util/FileUtil.java:234-241 | When the staging directory was created but the rename onto `folder` was refused, the result is false and the clean-up `delete()` removes the staging directory, unless that delete itself draws a fault. |
| Staged.MkdirViaFailureClearsOwn | src/org/syncany/util/FileUtil.java:231-241 | Without injected faults, a false result never leaves a staging directory where there was none before. |
| Staged.MkdirViaFrame | src/org/syncany/util/FileUtil.java:213-244 | Whatever it returns, only `folder` and its staging path can change. |
| Staged.MkdirViaSucceeds | src/org/syncany/util/FileUtil.java:213-243 | Without injected faults, it returns true when the parent is a directory, the names are valid, the prefix is non-empty and nothing lies below the staging path. |
| Staged.DefaultPrefixesUsable | src/org/syncany/util/FileUtil.java:168-246 | The prefixes the one-argument overloads pass (".ignore-rename-to-", ".ignore-delete-from-", ".ignore-mkdir-", ".ignore-mkdirs-") are non-empty and turn every valid name into a valid name. |
| Staged.UsablePrefixStagesBeside | src/org/syncany/util/FileUtil.java:231 | With such a prefix the staging path differs from the target and has a valid name whenever the target has one. |
| Staged.MkdirsVia | src/org/syncany/util/FileUtil.java:249-252 | An existing `folder` gives true with nothing changed. |
| Staged.MkdirsViaFrame | src/org/syncany/util/FileUtil.java:249-278 | Only `folder`, its ancestors and their staging siblings can change. |
| Staged.MkdirsViaCreates | src/org/syncany/util/FileUtil.java:267-277 | A true result means `folder` exists and every proper ancestor is a directory. If `folder` was absent, it is now a directory. With a non-empty prefix, no level that was missing has its staging path left behind. |
| Staged.MkdirsViaFailure | src/org/syncany/util/FileUtil.java:267-277 | A false result (non-empty prefix) leaves `folder` absent: a failure higher up ends the call before the deeper levels. Without injected faults, no missing level leaves a staging directory behind where there was none: the levels made before the failure cleared theirs and the failing level deleted the one it created. |
| Staged.MkdirsViaFailureClearsStaging | src/org/syncany/util/FileUtil.java:249-278 | The induction over the levels behind the fault-free staging clause of `Staged.MkdirsViaFailure`. |
| Staged.MkdirsViaSucceeds | src/org/syncany/util/FileUtil.java:249-278 | Without injected faults and with a non-empty prefix, the result is true when the existing levels are directories and every missing level has valid names and nothing below its staging path. Afterwards `folder` exists, every proper ancestor is a directory, and a previously absent `folder` is a directory. |
| Resume.RenameViaResumingConverges | src/org/syncany/util/FileUtil.java:172-185 | Resuming from the state right after a successful staging rename yields exactly the disk and result of the uninterrupted renameVia. |
| Resume.RenameViaResumingCommits | src/org/syncany/util/FileUtil.java:180-185 | Without faults, resuming with the source absent and the staging path present moves the staged subtree onto an absent target under a directory, returns true and leaves the staging path empty. |
| Resume.DeleteViaResumingConverges | src/org/syncany/util/FileUtil.java:192-206 | Resuming from the state right after a successful staging rename yields exactly the disk and result of the uninterrupted deleteVia. |
| Resume.DeleteViaResumingCommits | src/org/syncany/util/FileUtil.java:200-206 | Without faults, resuming with the path absent and a childless node at the staging path deletes that node and returns true. |
| Walker.ListNoSort | src/org/syncany/util/FileUtil.java:95-111 | The collection holds exactly the nodes strictly below the directory that are files, or any node when directories are included, each once. |
| Walker.ListEntries | src/org/syncany/util/FileUtil.java:99-108 | For the remaining entries, it holds exactly the listed nodes under those entries' names, each once. |
| Walker.GetRecursiveFileList | src/org/syncany/util/FileUtil.java:84-93 | It fails with "Invalid directory" exactly when the root is not a readable directory. Otherwise it returns every listed path string, and only those, strictly ascending. |
| Walker.GetRecursiveFileListFilesOnly | src/org/syncany/util/FileUtil.java:80-82 | The one-argument overload fails exactly when the root is not a readable directory; otherwise it lists exactly the files below the root, and no directory. |
| Walker.FileListIsSortedSet | src/org/syncany/util/FileUtil.java:90 | The result is the ascending sequence of the listed path strings, so it does not depend on the order in which entries are enumerated. |
| Walker.RenderInjective | src/org/syncany/util/FileUtil.java:90 | Distinct paths have distinct path strings, so sorting by path string loses no entry. |
| Lex.Sort | src/org/syncany/util/FileUtil.java:90 | `Collections.sort` yields an ascending permutation of its input. |
| Lex.SortedPermutationUnique | src/org/syncany/util/FileUtil.java:90 | Any two ascending permutations of the same strings are equal. |
| Lex.StrictlySortedUnique | src/org/syncany/util/FileUtil.java:90 | Two strictly ascending sequences with the same elements are equal. |
| PathNames.LastIndexOf | src/org/syncany/util/FileUtil.java:129 | `lastIndexOf` gives -1 exactly when the character is absent. Otherwise it gives a position holding the character, with no occurrence after it. |
| PathNames.GetExtension | src/org/syncany/util/FileUtil.java:128-137 | The extension is a suffix of the name. It is empty when there is no dot. Without `includeDot` it has no dot; with `includeDot` it is one dot followed by dot-free text. |
| PathNames.GetBasename | src/org/syncany/util/FileUtil.java:150-158 | The basename is a prefix of the name. It is the whole name when there is no dot; otherwise the name continues with the last dot. |
| PathNames.BasenameExtensionSplit | src/org/syncany/util/FileUtil.java:128-158 | For a name with a dot, basename + "." + extension is the name, and the extension has no dot. |
| PathNames.BasenameExtensionUnique | src/org/syncany/util/FileUtil.java:128-158 | Conversely, every split at a dot with a dot-free right part is the one computed. |
| PathNames.NoDot | src/org/syncany/util/FileUtil.java:128-158 | Without a dot, both extensions are "" and the basename is the whole name. |
| PathNames.IncludeDotPrepends | src/org/syncany/util/FileUtil.java:135-136 | `includeDot` prepends "." exactly when a dot exists. |
| PathNames.GetAbsoluteParentDirectory | src/org/syncany/util/FileUtil.java:70-72 | It fails (index -1) exactly when there is no separator. Otherwise it returns the proper prefix before the last separator. |
| PathNames.ParentOfChild | src/org/syncany/util/FileUtil.java:70-72 | The parent of `dir + "/" + name`, for a separator-free name, is `dir`. |
| PathNames.StripTrailing | src/org/syncany/util/FileUtil.java:54-56 | It removes exactly the trailing run of separators. |
| PathNames.StripLeading | src/org/syncany/util/FileUtil.java:59-61 | It removes exactly the leading run of separators. |
| PathNames.GetRelativePath | src/org/syncany/util/FileUtil.java:45-64 | It returns "" when the base is at least as long as the file. Otherwise it returns the stretch of the file path after base length + 1, with only separators stripped from either end, and the result neither starts nor ends with a separator. |
| PathNames.RelativePathRoundTrip | src/org/syncany/util/FileUtil.java:45-64 | A relative path without outer separators, appended to a base with one separator, is recovered exactly. |
| PathNames.RootBaseDropsCharacter | src/org/syncany/util/FileUtil.java:51 | As written, base "/" and file "/ab" give "b". |
| PathNames.GetRelativePathCorrected | src/org/syncany/util/FileUtil.java:51 | This corrected version skips a separator after the base only when the base does not already end with one. It keeps the same outer-separator guarantees. |
| PathNames.RelativePathCorrectedRoundTrip | src/org/syncany/util/FileUtil.java:51 | The corrected version recovers any separator-trimmed relative path, the empty one included, below any base, including the root "/". |

## Left out

- `createChecksum`: the digest comes from `MessageDigest`, a foreign SHA-1 implementation, and is not modelled.
- The byte-stream helpers are not modelled. These are `copy`, `readFile` with its 20 MB guard, `readFileToString`, `writeToFile` and `appendToOutputStream`: I/O plumbing with no state in the tree.
- `getCanonicalFile`, `getAbsolutePath` and the `IOException` branches of `mkdirVia`/`mkdirsVia` are left out. Paths are taken as already absolute and canonical, because canonicalisation depends on the working directory and on symbolic links.
- `getAbsoluteParentDirectory(File)` and `getRelativeParentDirectory` only wrap the modelled string functions in `File` objects.
- The logger calls in `mkdirsVia` are left out; they affect observability only.
- Unreadable subdirectories are not modelled. There `listFiles()` returns null and the source throws a NullPointerException. Every directory is listable; only the root's readability is a parameter.
- The order of `listFiles()` is fixed to ascending names. The Java platform leaves it unspecified. This order affects only which sibling `deleteRecursively` attempts first. `Walker.FileListIsSortedSet` shows the sorted listing does not depend on it.
- `Lex.Le` compares strings character by character, as `String.compareTo` compares UTF-16 code units. Surrogate pairs and platform-specific `File.compareTo` rules (case-insensitive on some systems) are not modelled.
- Platform `renameTo` semantics are not modelled: overwriting an existing target, cross-device moves, concurrent processes. Renaming onto an existing path fails.
- Staged.RenameVia, Staged.DeleteVia: they require a non-root target. The root has no parent, and `getParentFile()` would return null and raise a NullPointerException.
- Staged.MkdirViaFailure, Staged.MkdirsViaFailure: `folder` stays absent only for a non-empty prefix. With an empty prefix the staging path is `folder` itself, and a failed clean-up `delete()` leaves it as a directory.
- Staged.MkdirsViaFailure: the staging clean-up of the failing level is promised only without injected faults. Under faults the clean-up `delete()` may itself be refused; `Staged.MkdirViaRemovesStaging` states the single-level case for any fault pattern in which that delete is not refused.
- Staged.RenameViaFailureLosesNothing: a false result does not promise that the source's content survived. When the source lies at or below the staging path, the clean-up has already deleted it (`Staged.RenameViaFromStaging`). `Staged.RenameViaFailureKeepsSource` gives the content guarantee for a source disjoint from the staging path.
- Staged.DeleteViaFailureLosesNothing: a false result does not promise that the content survived. With the empty prefix the clean-up deletes the path itself (`Staged.DeleteViaEmptyPrefixDeletes`). `Staged.DeleteViaFailureKeepsContent` gives the content guarantee for a non-empty prefix.
- Staged.RenameViaStageFailure: the source keeps its subtree only when it and the staging path are disjoint; otherwise the clean-up removed it (`Staged.RenameViaFromStaging`). The target keeps its subtree only for a non-empty prefix (`Staged.RenameViaStageFailureKeepsTarget`); with the empty prefix the target is the staging path and is cleared.
- A staging prefix containing '/' names a path two levels away. Here it is an invalid name, so operations through it fail.
- `mkdirVia` and `mkdirsVia` return true when a regular file already occupies `folder`, as the source does (`exists()`, not `isDirectory()`). `Staged.MkdirsViaCreates` therefore promises a directory only for a previously absent `folder`.

## Findings

| source | as written | input that shows it | evidently intended | confidence | as-written member | corrected member |
|---|---|---|---|---|---|---|
| src/org/syncany/util/FileUtil.java:51 | `substring(base length + 1)` always skips one character after the base, assuming it is a separator | base "/" (the root), file "/ab": the result is "b" | "ab": skip a separator only when the base does not already end with one | high for the root base, not executed | PathNames.RootBaseDropsCharacter | PathNames.RelativePathCorrectedRoundTrip |
| src/org/syncany/util/FileUtil.java:174 | `renameVia` first deletes whatever lies at the staging path | a renameVia stopped between its two renames, then run again: the source is absent and the staged content lies at the staging path | the re-run commits the staged content to the target and returns true, so an interrupted rename converges | medium, not executed | Staged.RenameViaRerunDiscardsStaged | Resume.RenameViaResumingConverges |
| src/org/syncany/util/FileUtil.java:194 | `deleteVia` first deletes whatever lies at the staging path | a deleteVia stopped between its rename and its delete, then run again: the path is absent and the staged node lies at the staging path | the re-run deletes the staged node and returns true | medium, not executed | Staged.DeleteViaRerunReportsFailure | Resume.DeleteViaResumingConverges |

The intended contract of `renameVia`/`deleteVia` is often read as "a false
result leaves the source with its original content". The code guarantees that
only when the rollback rename succeeds. The model follows the code: the
`*FailureLosesNothing` lemmas state the weaker either-or. The `*RollsBack`
lemmas state the restoration without faults. The `*RollsBackAfterRefusal`
lemmas state it after a refused commit whenever the rename back is not itself
refused by a fault.

The two staging rows concern an interruption between the steps. The model
has no crash; a stopped run is the disk left after the staging rename. The
`Resume` module resumes from that state: it commits the staged node when the
source is absent and the staging path present, and otherwise runs the
operation as written. `Resume.RenameViaResumingCommits` and
`Resume.DeleteViaResumingCommits` show that resuming succeeds without faults.

=== FILE: fs.dfy ===
/**
 The filesystem as FileUtil sees it through java.io.File: a map from absolute
 canonical paths to nodes, and the primitives exists, isDirectory, listFiles,
 delete, mkdir and renameTo.

 The mutating primitives may fail for reasons the model does not see (permissions,
 a full disk, another process): a fault oracle, a sequence of booleans carried in
 the Disk, decides. Every mutating primitive consumes one entry; `true` makes the
 call fail. A failed primitive leaves the tree unchanged.
 */
module Fs {
  import opened Results
  import Lex

  /** Path segments from the root; [] is "/". */
  type Path = seq<string>

  datatype Node = File(content: seq<bv8>) | Dir

  type Tree = map<Path, Node>

  /** A file name: non-empty and free of the separator. */
  predicate ValidName(n: string)
  {
    |n| > 0 && '/' !in n
  }

  function Parent(p: Path): Path
    requires p != []
  {
    p[..|p| - 1]
  }

  function Name(p: Path): string
    requires p != []
  {
    p[|p| - 1]
  }

  function Get(fs: Tree, p: Path): Option<Node>
  {
    if p in fs then Some(fs[p]) else None
  }

  predicate IsDir(fs: Tree, p: Path)
  {
    p in fs && fs[p].Dir?
  }

  /** The root is a directory and every other node hangs below a directory. */
  predicate WellFormed(fs: Tree)
  {
    && IsDir(fs, [])
    && forall p | p in fs && p != [] :: IsDir(fs, Parent(p)) && ValidName(Name(p))
  }

  /** Nothing lies strictly below `p`. */
  predicate Childless(fs: Tree, p: Path)
  {
    forall q | q in fs :: !(p < q)
  }

  /** Neither `p` nor anything below it is present. */
  predicate Gone(fs: Tree, p: Path)
  {
    forall q | q in fs :: !(p <= q)
  }

  /** `p` together with everything below it. */
  function Descendants(fs: Tree, p: Path): set<Path>
  {
    set q | q in fs && p <= q
  }

  /** A proper descendant has strictly fewer descendants; recursion over subtrees terminates by this. */
  lemma DescendantsOfChild(fs: Tree, p: Path, c: Path)
    requires p in fs && p < c
    ensures |Descendants(fs, c)| < |Descendants(fs, p)|
  {
    var a, b := Descendants(fs, c), Descendants(fs, p);
    assert p in b && p !in a;
    assert b == a + (b - a) && a !! (b - a);
    assert |b - a| >= 1 by { assert p in b - a; }
  }

  /** The subtree of `a` at `pa` equals the subtree of `b` at `pb`. */
  ghost predicate SameSubtree(a: Tree, pa: Path, b: Tree, pb: Path)
  {
    forall s :: Get(a, pa + s) == Get(b, pb + s)
  }

  /** `a` and `b` agree everywhere outside the subtree at `p`. */
  ghost predicate SameOutside(a: Tree, b: Tree, p: Path)
  {
    forall q :: !(p <= q) ==> Get(a, q) == Get(b, q)
  }

  /** `after` keeps a subset of the nodes of `before`, unchanged. */
  predicate Shrinks(before: Tree, after: Tree)
  {
    forall q | q in after :: q in before && after[q] == before[q]
  }

  lemma {:induction false} PrefixesComparable(a: Path, b: Path, c: Path)
    ensures a <= c && b <= c ==> a <= b || b <= a
  {
    if a <= c && b <= c {
      if |a| <= |b| {
        assert a == c[..|a|] == b[..|a|];
      } else {
        assert b == c[..|b|] == a[..|b|];
      }
    }
  }

  /** In a well-formed tree every proper ancestor of a node is a directory. */
  lemma {:induction false} AncestorIsDir(fs: Tree, q: Path, a: Path)
    requires WellFormed(fs) && q in fs && a < q
    ensures IsDir(fs, a)
    decreases |q|
  {
    var pq := Parent(q);
    assert a <= pq by { assert a == q[..|a|] == pq[..|a|]; }
    if a != pq {
      AncestorIsDir(fs, pq, a);
    }
  }

  /** Whatever lies strictly below `p` lies below one of its children. */
  lemma ChildPresent(fs: Tree, p: Path, q: Path)
    requires WellFormed(fs) && q in fs && p < q
    ensures p + [q[|p|]] in fs && p + [q[|p|]] <= q
  {
    var c := q[..|p| + 1];
    assert c == p + [q[|p|]];
    if c != q {
      AncestorIsDir(fs, q, c);
    }
  }

  /** An absent path has nothing below it. */
  lemma AbsentIsGone(fs: Tree, p: Path)
    requires WellFormed(fs) && p !in fs
    ensures Gone(fs, p)
  {
    forall q | q in fs ensures !(p <= q) {
      if p <= q && p != q {
        AncestorIsDir(fs, q, p);
      }
    }
  }

  /**
   `m` is `fs` with the subtree at `src` re-rooted at `dst`: what lay at
   `src + s` now lies at `dst + s`, nothing remains below `src`, and the rest
   is unchanged.
   */
  ghost predicate IsMove(m: Tree, fs: Tree, src: Path, dst: Path)
  {
    && (forall s :: Get(m, dst + s) == Get(fs, src + s))
    && (forall q :: !(dst <= q) ==> Get(m, q) == if src <= q then None else Get(fs, q))
  }

  function Move(fs: Tree, src: Path, dst: Path): (m: Tree)
    requires Gone(fs, dst)
    ensures IsMove(m, fs, src, dst)
  {
    var kept := Pruned(fs, src);
    var moved := ReRooted(fs, src, dst);
    MoveIsMove(fs, src, dst, kept, moved);
    kept + moved
  }

  /** `fs` without the subtree at `src`. */
  function Pruned(fs: Tree, src: Path): (kept: Tree)
    ensures forall q :: Get(kept, q) == if src <= q then None else Get(fs, q)
  {
    map q | q in fs && !(src <= q) :: fs[q]
  }

  /** The subtree at `src`, re-rooted at `dst`. */
  function ReRooted(fs: Tree, src: Path, dst: Path): (moved: Tree)
    ensures forall s :: Get(moved, dst + s) == Get(fs, src + s)
    ensures forall k | k in moved :: dst <= k
  {
    ReRootInjective(src, dst);
    var moved := map q | q in fs && src <= q :: dst + q[|src|..] := fs[q];
    forall s ensures Get(moved, dst + s) == Get(fs, src + s) {
      if src + s in fs {
        assert (src + s)[|src|..] == s;
      }
      if dst + s in moved {
        var q :| q in fs && src <= q && dst + s == dst + q[|src|..];
        assert q[|src|..] == (dst + s)[|dst|..] == s;
        assert q == src + s;
      }
    }
    moved
  }

  /** Re-rooting from `src` to `dst` maps distinct paths to distinct paths. */
  lemma ReRootInjective(src: Path, dst: Path)
    ensures forall q1, q2 | src <= q1 && src <= q2 && dst + q1[|src|..] == dst + q2[|src|..] :: q1 == q2
  {
    forall q1, q2 | src <= q1 && src <= q2 && dst + q1[|src|..] == dst + q2[|src|..] ensures q1 == q2 {
      assert q1[|src|..] == (dst + q1[|src|..])[|dst|..];
      assert q1 == src + q1[|src|..] && q2 == src + q2[|src|..];
    }
  }

  lemma MoveIsMove(fs: Tree, src: Path, dst: Path, kept: Tree, moved: Tree)
    requires Gone(fs, dst)
    requires forall q :: Get(kept, q) == if src <= q then None else Get(fs, q)
    requires forall s :: Get(moved, dst + s) == Get(fs, src + s)
    requires forall k | k in moved :: dst <= k
    ensures IsMove(kept + moved, fs, src, dst)
  {
    var m := kept + moved;
    forall s ensures Get(m, dst + s) == Get(kept, dst + s) || Get(m, dst + s) == Get(moved, dst + s) {
    }
    forall s ensures Get(m, dst + s) == Get(fs, src + s) {
      assert Get(kept, dst + s) == None by {
        assert dst + s !in fs;
      }
    }
    forall q | !(dst <= q) ensures Get(m, q) == Get(kept, q) {
      assert q !in moved;
    }
  }

  /** Conditions of a successful rename, minus the oracle. */
  predicate CanRename(fs: Tree, src: Path, dst: Path)
  {
    && src != [] && src in fs
    && dst != [] && dst !in fs && IsDir(fs, Parent(dst)) && ValidName(Name(dst))
    && !(src <= dst)
  }

  lemma MoveWellFormed(m: Tree, fs: Tree, src: Path, dst: Path)
    requires WellFormed(fs) && CanRename(fs, src, dst) && Gone(fs, dst)
    requires IsMove(m, fs, src, dst)
    ensures WellFormed(m)
  {
    assert Get(m, []) == Get(fs, []) by {
      assert !(dst <= []) && !(src <= []);
    }
    forall p | p in m && p != [] ensures IsDir(m, Parent(p)) && ValidName(Name(p)) {
      if dst <= p {
        MovedNodeHangsBelowDir(m, fs, src, dst, p);
      } else {
        KeptNodeHangsBelowDir(m, fs, src, dst, p);
      }
    }
  }

  lemma MovedNodeHangsBelowDir(m: Tree, fs: Tree, src: Path, dst: Path, p: Path)
    requires WellFormed(fs) && CanRename(fs, src, dst)
    requires IsMove(m, fs, src, dst)
    requires p in m && dst <= p
    ensures IsDir(m, Parent(p)) && ValidName(Name(p))
  {
    if p == dst {
      var pd := Parent(dst);
      assert !(dst <= pd);
      assert !(src <= pd) by {
        PrefixOfParent(src, dst);
      }
      assert Get(m, pd) == Get(fs, pd);
    } else {
      var s := p[|dst|..];
      assert p == dst + s;
      MovedParent(m, fs, src, dst, s);
    }
  }

  lemma PrefixOfParent(a: Path, p: Path)
    requires p != []
    ensures a <= Parent(p) ==> a <= p
  {
  }

  lemma MovedParent(m: Tree, fs: Tree, src: Path, dst: Path, s: Path)
    requires WellFormed(fs)
    requires IsMove(m, fs, src, dst)
    requires dst + s in m && s != []
    ensures IsDir(m, Parent(dst + s)) && ValidName(Name(dst + s))
  {
    var t := s[..|s| - 1];
    assert Get(m, dst + s) == Get(fs, src + s);
    assert Parent(dst + s) == dst + t;
    assert Parent(src + s) == src + t;
    assert Name(dst + s) == Name(src + s);
    assert Get(m, dst + t) == Get(fs, src + t);
  }

  lemma KeptNodeHangsBelowDir(m: Tree, fs: Tree, src: Path, dst: Path, p: Path)
    requires WellFormed(fs) && IsMove(m, fs, src, dst)
    requires p in m && p != [] && !(dst <= p)
    ensures IsDir(m, Parent(p)) && ValidName(Name(p))
  {
    assert Get(m, p) == Get(fs, p) && !(src <= p);
    assert !(dst <= Parent(p));
    assert !(src <= Parent(p));
    assert Get(m, Parent(p)) == Get(fs, Parent(p));
  }

  /** The names listFiles returns for `p`, in ascending order. */
  function ListFiles(fs: Tree, p: Path): (names: seq<string>)
    ensures Lex.StrictlySorted(names)
    ensures forall n :: n in names <==> p + [n] in fs
  {
    var s := set q | q in fs && |q| == |p| + 1 && q[..|p|] == p :: q[|p|];
    assert forall n :: n in s <==> p + [n] in fs by {
      forall n ensures n in s <==> p + [n] in fs {
        if p + [n] in fs {
          var q := p + [n];
          assert |q| == |p| + 1 && q[..|p|] == p && q[|p|] == n;
        }
        if n in s {
          var q :| q in fs && |q| == |p| + 1 && q[..|p|] == p && q[|p|] == n;
          assert q == p + [n];
        }
      }
    }
    Lex.SortedElements(s)
  }

  /** The world the primitives act on. */
  datatype Disk = Disk(fs: Tree, faults: seq<bool>)

  /** What a primitive (or a composite operation) leaves behind, and its boolean result. */
  datatype Step = Step(disk: Disk, ok: bool)

  predicate Faulty(d: Disk)
  {
    |d.faults| > 0 && d.faults[0]
  }

  /** No pending entry of the oracle injects a failure. */
  predicate FaultFree(d: Disk)
  {
    forall i | 0 <= i < |d.faults| :: !d.faults[i]
  }

  function Consume(d: Disk, fs: Tree): (r: Disk)
    ensures FaultFree(d) ==> FaultFree(r)
  {
    Disk(fs, if |d.faults| > 0 then d.faults[1..] else [])
  }

  function Fail(d: Disk): Step
  {
    Step(Consume(d, d.fs), false)
  }

  /** File.delete: removes a file or an empty directory. */
  function Delete(d: Disk, p: Path): (r: Step)
    requires WellFormed(d.fs)
    ensures WellFormed(r.disk.fs)
    ensures Shrinks(d.fs, r.disk.fs)
    ensures r.ok <==> !Faulty(d) && p != [] && p in d.fs && Childless(d.fs, p)
    ensures r.ok ==> r.disk.fs.Keys == d.fs.Keys - {p}
    ensures !r.ok ==> r.disk.fs == d.fs
  {
    if !Faulty(d) && p != [] && p in d.fs && Childless(d.fs, p) then
      Step(Consume(d, d.fs - {p}), true)
    else
      Fail(d)
  }

  /** File.mkdir: creates one directory whose parent is a directory. */
  function Mkdir(d: Disk, p: Path): (r: Step)
    requires WellFormed(d.fs)
    ensures WellFormed(r.disk.fs)
    ensures r.ok <==> !Faulty(d) && p != [] && p !in d.fs && IsDir(d.fs, Parent(p)) && ValidName(Name(p))
    ensures r.ok ==> r.disk.fs == d.fs[p := Dir]
    ensures !r.ok ==> r.disk.fs == d.fs
  {
    if !Faulty(d) && p != [] && p !in d.fs && IsDir(d.fs, Parent(p)) && ValidName(Name(p)) then
      Step(Consume(d, d.fs[p := Dir]), true)
    else
      Fail(d)
  }

  /**
   File.renameTo: moves the node at `src`, with everything below it, to the
   absent path `dst`. Overwriting an existing target is not modelled.
   */
  function Rename(d: Disk, src: Path, dst: Path): (r: Step)
    requires WellFormed(d.fs)
    ensures WellFormed(r.disk.fs)
    ensures r.ok <==> !Faulty(d) && CanRename(d.fs, src, dst)
    ensures r.ok ==> SameSubtree(r.disk.fs, dst, d.fs, src)
    ensures r.ok ==> Gone(d.fs, dst) && Gone(r.disk.fs, src)
    ensures r.ok ==> forall q :: !(src <= q) && !(dst <= q) ==> Get(r.disk.fs, q) == Get(d.fs, q)
    ensures !r.ok ==> r.disk.fs == d.fs
  {
    if !Faulty(d) && CanRename(d.fs, src, dst) then
      AbsentIsGone(d.fs, dst);
      var m := Move(d.fs, src, dst);
      MoveWellFormed(m, d.fs, src, dst);
      MoveClearsSource(m, d.fs, src, dst);
      Step(Consume(d, m), true)
    else
      Fail(d)
  }

  /** After a move to a path outside it, nothing is left at or below the source. */
  lemma MoveClearsSource(m: Tree, fs: Tree, src: Path, dst: Path)
    requires IsMove(m, fs, src, dst) && Gone(fs, dst) && src in fs && !(src <= dst)
    ensures Gone(m, src)
  {
    assert src !in fs || !(dst <= src);
    forall q | q in m ensures !(src <= q) {
      PrefixesComparable(src, dst, q);
      assert Get(m, q) != None;
    }
  }
}

=== FILE: lex.dfy ===
/**
 The order of java.lang.String.compareTo (lexicographic on characters, a proper
 prefix first) and the sorting FileUtil relies on: Collections.sort of path
 names, and the name order in which the model enumerates a directory.
 */
module Lex {
  import Seqs

  /** `a.compareTo(b) <= 0` */
  predicate Le(a: string, b: string)
  {
    if a == [] then true
    else if b == [] then false
    else if a[0] != b[0] then a[0] < b[0]
    else Le(a[1..], b[1..])
  }

  /** `a.compareTo(b) < 0` */
  predicate Lt(a: string, b: string)
  {
    Le(a, b) && a != b
  }

  lemma {:induction false} LeReflexive(a: string)
    ensures Le(a, a)
  {
    if a != [] {
      LeReflexive(a[1..]);
    }
  }

  lemma {:induction false} LeAntisymmetric(a: string, b: string)
    requires Le(a, b) && Le(b, a)
    ensures a == b
  {
    if a != [] && b != [] {
      LeAntisymmetric(a[1..], b[1..]);
      assert a == [a[0]] + a[1..];
      assert b == [b[0]] + b[1..];
    }
  }

  lemma {:induction false} LeTransitive(a: string, b: string, c: string)
    requires Le(a, b) && Le(b, c)
    ensures Le(a, c)
  {
    if a != [] && b != [] && c != [] && a[0] == b[0] && b[0] == c[0] {
      LeTransitive(a[1..], b[1..], c[1..]);
    }
  }

  lemma {:induction false} LeTotal(a: string, b: string)
    ensures Le(a, b) || Le(b, a)
  {
    if a != [] && b != [] && a[0] == b[0] {
      LeTotal(a[1..], b[1..]);
    }
  }

  predicate Sorted(s: seq<string>)
  {
    forall i, j | 0 <= i < j < |s| :: Le(s[i], s[j])
  }

  predicate StrictlySorted(s: seq<string>)
  {
    forall i, j | 0 <= i < j < |s| :: Lt(s[i], s[j])
  }

  /** Inserts `x` into a sorted sequence. */
  function Insert(x: string, s: seq<string>): (r: seq<string>)
    requires Sorted(s)
    ensures Sorted(r)
    ensures multiset(r) == multiset(s) + multiset{x}
  {
    if s == [] then [x]
    else if Le(x, s[0]) then
      assert forall j | 0 <= j < |s| :: Le(x, s[j]) by {
        forall j | 0 <= j < |s| ensures Le(x, s[j]) {
          if j > 0 { LeTransitive(x, s[0], s[j]); }
        }
      }
      [x] + s
    else
      var rest := Insert(x, s[1..]);
      assert s == [s[0]] + s[1..];
      HeadStaysFirst(x, s, rest);
      [s[0]] + rest
  }

  /** The head of a sorted `s` that sorts after `x` stays below everything once `x` joins the tail. */
  lemma HeadStaysFirst(x: string, s: seq<string>, rest: seq<string>)
    requires Sorted(s) && s != [] && !Le(x, s[0])
    requires multiset(rest) == multiset(s[1..]) + multiset{x}
    ensures forall j | 0 <= j < |rest| :: Le(s[0], rest[j])
  {
    forall j | 0 <= j < |rest| ensures Le(s[0], rest[j]) {
      assert rest[j] in multiset(rest);
      if rest[j] == x {
        LeTotal(x, s[0]);
      } else {
        assert rest[j] in multiset(s[1..]);
        var k :| 0 <= k < |s[1..]| && s[1..][k] == rest[j];
        assert s[k + 1] == rest[j];
      }
    }
  }

  /**
   The model of Collections.sort: insertion sort. Which stable sort is used does
   not matter, see SortedPermutationUnique.
   */
  function Sort(s: seq<string>): (r: seq<string>)
    ensures Sorted(r)
    ensures multiset(r) == multiset(s)
  {
    if s == [] then []
    else
      assert s == [s[0]] + s[1..];
      Insert(s[0], Sort(s[1..]))
  }

  /** Sorting a list without repeats orders it strictly. */
  lemma SortStrict(s: seq<string>)
    requires Seqs.Distinct(s)
    ensures StrictlySorted(Sort(s))
  {
    var r := Sort(s);
    forall i, j | 0 <= i < j < |r| ensures Lt(r[i], r[j]) {
      if r[i] == r[j] {
        RepeatCount(r, i, j);
        Seqs.DistinctCount(s, r[i]);
        assert false;
      }
    }
  }

  lemma RepeatCount<T>(r: seq<T>, i: int, j: int)
    requires 0 <= i < j < |r| && r[i] == r[j]
    ensures multiset(r)[r[i]] >= 2
  {
    assert r == r[..j] + r[j..];
    assert r[i] in r[..j] && r[j] in r[j..];
  }

  /**
   Two sorted arrangements of the same strings are equal, so the result of
   Collections.sort does not depend on the algorithm or on the input order.
   */
  lemma {:induction false} SortedPermutationUnique(a: seq<string>, b: seq<string>)
    requires Sorted(a) && Sorted(b)
    requires multiset(a) == multiset(b)
    ensures a == b
  {
    if a != [] {
      assert a[0] in multiset(a);
      assert b != [] && b[0] in multiset(b);
      HeadIsLeast(a, b[0]);
      HeadIsLeast(b, a[0]);
      LeAntisymmetric(a[0], b[0]);
      TailMultiset(a);
      TailMultiset(b);
      SortedPermutationUnique(a[1..], b[1..]);
    }
  }

  lemma TailMultiset(a: seq<string>)
    requires a != []
    ensures multiset(a[1..]) == multiset(a) - multiset{a[0]}
  {
    assert a == [a[0]] + a[1..];
  }

  lemma HeadIsLeast(a: seq<string>, x: string)
    requires Sorted(a) && x in a
    ensures Le(a[0], x)
  {
    var i :| 0 <= i < |a| && a[i] == x;
    if i == 0 {
      LeReflexive(x);
    }
  }

  lemma {:induction false} MinExists(s: set<string>)
    requires s != {}
    ensures exists m :: m in s && forall x | x in s :: Le(m, x)
  {
    var y :| y in s;
    if s == {y} {
      LeReflexive(y);
      assert forall x | x in s :: Le(y, x);
    } else {
      var rest := s - {y};
      MinExists(rest);
      var m :| m in rest && forall x | x in rest :: Le(m, x);
      var least := MinOfTwo(rest, m, y);
      assert least in s;
    }
  }

  /** The smaller of `y` and the least element `m` of `rest` is least in `rest + {y}`. */
  lemma MinOfTwo(rest: set<string>, m: string, y: string) returns (least: string)
    requires m in rest && forall x | x in rest :: Le(m, x)
    ensures least in rest + {y} && forall x | x in rest + {y} :: Le(least, x)
  {
    LeTotal(m, y);
    if Le(m, y) {
      least := m;
    } else {
      least := y;
      forall x | x in rest + {y} ensures Le(y, x) {
        if x == y {
          LeReflexive(y);
        } else {
          LeTransitive(y, m, x);
        }
      }
    }
  }

  /** The least string of a non-empty set. */
  function Min(s: set<string>): (m: string)
    requires s != {}
    ensures m in s
    ensures forall x | x in s :: Le(m, x)
  {
    MinExists(s);
    assert forall a, b | a in s && b in s && Le(a, b) && Le(b, a) :: a == b by {
      forall a, b | a in s && b in s && Le(a, b) && Le(b, a) ensures a == b {
        LeAntisymmetric(a, b);
      }
    }
    var m :| m in s && forall x | x in s :: Le(m, x);
    m
  }

  /** The elements of a set in ascending order. */
  function SortedElements(s: set<string>): (r: seq<string>)
    ensures StrictlySorted(r)
    ensures forall x :: x in r <==> x in s
    decreases s
  {
    if s == {} then []
    else
      var m := Min(s);
      var rest := SortedElements(s - {m});
      assert forall j | 0 <= j < |rest| :: Lt(m, rest[j]) by {
        forall j | 0 <= j < |rest| ensures Lt(m, rest[j]) {
          assert rest[j] in s - {m};
        }
      }
      [m] + rest
  }

  /** Two strictly ascending sequences with the same elements are equal. */
  lemma {:induction false} StrictlySortedUnique(a: seq<string>, b: seq<string>)
    requires StrictlySorted(a) && StrictlySorted(b)
    requires forall x :: x in a <==> x in b
    ensures a == b
  {
    assert b != [] ==> b[0] in a;
    if a != [] {
      assert a[0] in b && b != [] && b[0] in a;
      var i :| 0 <= i < |b| && b[i] == a[0];
      var j :| 0 <= j < |a| && a[j] == b[0];
      LeReflexive(a[0]);
      LeReflexive(b[0]);
      assert Le(b[0], a[0]) by { if i > 0 { assert Lt(b[0], b[i]); } }
      assert Le(a[0], b[0]) by { if j > 0 { assert Lt(a[0], a[j]); } }
      LeAntisymmetric(a[0], b[0]);
      assert a == [a[0]] + a[1..];
      assert b == [b[0]] + b[1..];
      forall x ensures x in a[1..] <==> x in b[1..] {
        if x in a[1..] {
          var k :| 1 <= k < |a| && a[k] == x;
          assert Lt(a[0], a[k]);
          assert x in b && x != b[0];
        }
        if x in b[1..] {
          var k :| 1 <= k < |b| && b[k] == x;
          assert Lt(b[0], b[k]);
          assert x in a && x != a[0];
        }
      }
      StrictlySortedUnique(a[1..], b[1..]);
    }
  }
}

=== FILE: pathnames.dfy ===
/**
 Path-string helpers of FileUtil: file extensions, basenames, parent
 directories and base-relative paths, all over strings with '/' as the
 separator.
 */
module PathNames {
  import opened Results

  const Separator: char := '/'

  /** Raised by String.substring when an index is out of range. */
  datatype Failure = StringIndexOutOfBounds(index: int)

  predicate IsSuffix(r: string, s: string)
  {
    |r| <= |s| && s[|s| - |r|..] == r
  }

  /** String.lastIndexOf: the last position of `c`, or -1 when `c` does not occur. */
  function LastIndexOf(s: string, c: char): (i: int)
    ensures -1 <= i < |s|
    ensures i == -1 <==> c !in s
    ensures 0 <= i ==> s[i] == c && c !in s[i + 1..]
  {
    if |s| == 0 then
      -1
    else if s[|s| - 1] == c then
      |s| - 1
    else
      assert s == s[..|s| - 1] + [s[|s| - 1]];
      LastIndexOf(s[..|s| - 1], c)
  }

  /** FileUtil.getExtension(String, boolean): what follows the last '.', optionally with the dot. */
  function GetExtension(filename: string, includeDot: bool): (r: string)
    ensures IsSuffix(r, filename)
    ensures '.' !in filename ==> r == ""
    ensures '.' in filename && includeDot ==> |r| > 0 && r[0] == '.' && '.' !in r[1..]
    ensures !includeDot ==> '.' !in r
  {
    var dot := LastIndexOf(filename, '.');
    if dot == -1 then
      ""
    else
      assert filename[dot..] == [filename[dot]] + filename[dot + 1..];
      (if includeDot then "." else "") + filename[dot + 1..]
  }

  /** FileUtil.getBasename(String): everything before the last '.', or the whole name. */
  function GetBasename(filename: string): (r: string)
    ensures r <= filename
    ensures '.' !in filename ==> r == filename
    ensures '.' in filename ==> |r| < |filename| && filename[|r|] == '.' && '.' !in filename[|r| + 1..]
  {
    var dot := LastIndexOf(filename, '.');
    if dot == -1 then filename else filename[..dot]
  }

  /** Basename, dot and extension put back together give the name again. */
  lemma BasenameExtensionSplit(n: string)
    requires '.' in n
    ensures GetBasename(n) + "." + GetExtension(n, false) == n
    ensures '.' !in GetExtension(n, false)
  {
    var dot := LastIndexOf(n, '.');
    assert GetBasename(n) == n[..dot];
    assert GetExtension(n, false) == n[dot + 1..];
    assert n == n[..dot] + [n[dot]] + n[dot + 1..];
  }

  /**
   Conversely, any split of a name at a dot whose right part has no dot is the
   one getBasename and getExtension compute.
   */
  lemma {:induction false} BasenameExtensionUnique(n: string, b: string, e: string)
    requires n == b + "." + e && '.' !in e
    ensures GetBasename(n) == b && GetExtension(n, false) == e
  {
    var i := LastIndexOf(n, '.');
    assert n[|b|] == '.';
    assert i == |b|;
    assert n[..i] == b;
    assert n[i + 1..] == e;
  }

  /** A name without a dot has no extension and is its own basename. */
  lemma NoDot(n: string)
    requires '.' !in n
    ensures GetExtension(n, false) == "" && GetExtension(n, true) == "" && GetBasename(n) == n
  {
  }

  /** includeDot adds a leading "." exactly when there is an extension to report. */
  lemma IncludeDotPrepends(n: string)
    ensures GetExtension(n, true) == (if '.' in n then "." + GetExtension(n, false) else "")
  {
    var dot := LastIndexOf(n, '.');
    if dot != -1 {
      assert GetExtension(n, true) == "." + n[dot + 1..];
      assert GetExtension(n, false) == "" + n[dot + 1..];
    }
  }

  /**
   FileUtil.getAbsoluteParentDirectory(String): everything before the last
   separator; without a separator substring(0, -1) throws.
   */
  function GetAbsoluteParentDirectory(absFilePath: string): (r: Result<string, Failure>)
    ensures r.Err? <==> Separator !in absFilePath
    ensures r.Err? ==> r.error == StringIndexOutOfBounds(-1)
    ensures r.Ok? ==> r.value < absFilePath && absFilePath[|r.value|] == Separator
    ensures r.Ok? ==> Separator !in absFilePath[|r.value| + 1..]
  {
    var slash := LastIndexOf(absFilePath, Separator);
    if slash == -1 then Err(StringIndexOutOfBounds(-1)) else Ok(absFilePath[..slash])
  }

  /** The parent directory of `dir + "/" + name` is `dir`, for a name without separators. */
  lemma {:induction false} ParentOfChild(dir: string, name: string)
    requires Separator !in name
    ensures GetAbsoluteParentDirectory(dir + [Separator] + name) == Ok(dir)
  {
    var s := dir + [Separator] + name;
    var i := LastIndexOf(s, Separator);
    assert s[|dir|] == Separator;
    assert i == |dir|;
    assert s[..i] == dir;
  }

  /** `s` with every trailing separator removed (the first loop of getRelativePath). */
  function StripTrailing(s: string): (r: string)
    ensures r <= s
    ensures r == "" || r[|r| - 1] != Separator
    ensures forall k | |r| <= k < |s| :: s[k] == Separator
  {
    if |s| > 0 && s[|s| - 1] == Separator then StripTrailing(s[..|s| - 1]) else s
  }

  /** `s` with every leading separator removed (the second loop of getRelativePath). */
  function StripLeading(s: string): (r: string)
    ensures IsSuffix(r, s)
    ensures r == "" || r[0] != Separator
    ensures forall k | 0 <= k < |s| - |r| :: s[k] == Separator
  {
    if |s| > 0 && s[0] == Separator then StripLeading(s[1..]) else s
  }

  predicate NoOuterSeparator(r: string)
  {
    r == "" || (r[0] != Separator && r[|r| - 1] != Separator)
  }

  /** `r` is `s` with nothing but separators removed from its two ends. */
  ghost predicate TrimmedFrom(r: string, s: string)
  {
    exists i, j :: 0 <= i <= j <= |s| && r == s[i..j]
      && (forall k | 0 <= k < i :: s[k] == Separator)
      && (forall k | j <= k < |s| :: s[k] == Separator)
  }

  /** The two strip loops of getRelativePath: trailing separators first, then leading ones. */
  function Trim(s: string): (r: string)
    ensures NoOuterSeparator(r) && TrimmedFrom(r, s)
  {
    var trimmed := StripTrailing(s);
    var r := StripLeading(trimmed);
    assert r == s[|trimmed| - |r|..|trimmed|];
    r
  }

  /**
   FileUtil.getRelativePath on absolute path strings: "" when the base is not
   shorter than the file; otherwise the file path after the base and one more
   character, with separators stripped from both ends. Whether `file` actually
   starts with `base` is not checked.
   */
  function GetRelativePath(base: string, file: string): (r: string)
    ensures |base| >= |file| ==> r == ""
    ensures NoOuterSeparator(r)
    ensures |base| < |file| ==> TrimmedFrom(r, file[|base| + 1..])
  {
    if |base| >= |file| then "" else Trim(file[|base| + 1..])
  }

  /** A relative path without outer separators, appended to a base with one separator, comes back unchanged. */
  lemma RelativePathRoundTrip(base: string, rel: string)
    requires NoOuterSeparator(rel)
    ensures GetRelativePath(base, base + [Separator] + rel) == rel
  {
    var file := base + [Separator] + rel;
    assert file[|base| + 1..] == rel;
  }

  /**
   As written, a base that is the root directory "/" loses the first character
   of the relative path: substring(length + 1) skips a separator the base
   already ends with.
   */
  lemma RootBaseDropsCharacter()
    ensures GetRelativePath("/", "/ab") == "b"
  {
    assert "/ab"[2..] == "b";
  }

  predicate EndsWithSeparator(base: string)
  {
    base != "" && base[|base| - 1] == Separator
  }

  /** `rel` below `base`, joined the way absolute paths are: no doubled separator after the root. */
  function Join(base: string, rel: string): (r: string)
    ensures base <= r && IsSuffix(rel, r)
    ensures |r| == |base| + |rel| + (if EndsWithSeparator(base) then 0 else 1)
  {
    if EndsWithSeparator(base) then base + rel else base + [Separator] + rel
  }

  /**
   getRelativePath with the evident intent: skip the separator after the base
   only when the base does not already end with one.
   */
  function GetRelativePathCorrected(base: string, file: string): (r: string)
    ensures |base| >= |file| ==> r == ""
    ensures NoOuterSeparator(r)
    ensures |base| < |file| ==> TrimmedFrom(r, file[if EndsWithSeparator(base) then |base| else |base| + 1..])
  {
    if |base| >= |file| then
      ""
    else
      Trim(file[if EndsWithSeparator(base) then |base| else |base| + 1..])
  }

  /** The corrected version recovers `rel` from `Join(base, rel)`, including for the root base "/". */
  lemma RelativePathCorrectedRoundTrip(base: string, rel: string)
    requires NoOuterSeparator(rel)
    ensures GetRelativePathCorrected(base, Join(base, rel)) == rel
  {
    var file := Join(base, rel);
    if EndsWithSeparator(base) {
      assert file[|base|..] == rel;
    } else {
      assert file[|base| + 1..] == rel;
    }
  }
}

=== FILE: results.dfy ===
/** Failure-carrying values used where FileUtil throws or returns null. */
module Results {

  datatype Option<+T> = None | Some(value: T)

  /** `Err` stands for a thrown exception. */
  datatype Result<+T, +E> = Ok(value: T) | Err(error: E)
}

=== FILE: resume.dfy ===
/**
 The staged operations as the staging protocol intends them after an
 interruption: a run stopped between the staging rename and the commit is
 finished by the next run instead of being cleaned away.
 */
module Resume {
  import opened Fs
  import opened Staged

  /**
   renameVia as the staging protocol intends it: when `src` is absent but the
   staging path is present, an earlier run stopped after staging, so the
   staged content is committed to `dst` instead of being cleaned away.
   */
  function RenameViaResuming(d: Disk, src: Path, dst: Path, prefix: string): (r: Step)
    requires WellFormed(d.fs) && dst != []
    ensures WellFormed(r.disk.fs)
  {
    var temp := TempPath(dst, prefix);
    if src !in d.fs && temp in d.fs then CommitStaged(d, src, dst, temp) else RenameVia(d, src, dst, prefix)
  }

  /** Right after a successful staging rename, `src` is absent and the staging path present. */
  lemma StagedState(d: Disk, src: Path, dst: Path, prefix: string)
    requires WellFormed(d.fs) && dst != []
    requires Rename(DeleteRecursively(d, TempPath(dst, prefix)).disk, src, TempPath(dst, prefix)).ok
    ensures var x := Rename(DeleteRecursively(d, TempPath(dst, prefix)).disk, src, TempPath(dst, prefix)).disk;
            WellFormed(x.fs) && src !in x.fs && TempPath(dst, prefix) in x.fs
  {
    var temp := TempPath(dst, prefix);
    var cleared := DeleteRecursively(d, temp);
    var staged := Rename(cleared.disk, src, temp);
    SubtreeRoot(staged.disk.fs, temp, cleared.disk.fs, src);
  }

  /**
   Resuming from the state right after a successful staging rename ends in
   exactly the state and result of the uninterrupted renameVia.
   */
  lemma RenameViaResumingConverges(d: Disk, src: Path, dst: Path, prefix: string, staged: Step)
    requires WellFormed(d.fs) && dst != []
    requires staged == Rename(DeleteRecursively(d, TempPath(dst, prefix)).disk, src, TempPath(dst, prefix))
    requires staged.ok
    ensures RenameViaResuming(staged.disk, src, dst, prefix) == RenameVia(d, src, dst, prefix)
  {
    StagedState(d, src, dst, prefix);
  }

  /** Resuming a stopped renameVia without faults moves the staged content onto `dst`. */
  lemma RenameViaResumingCommits(d: Disk, src: Path, dst: Path, prefix: string)
    requires WellFormed(d.fs) && FaultFree(d) && dst != [] && prefix != ""
    requires src !in d.fs && TempPath(dst, prefix) in d.fs
    requires dst !in d.fs && IsDir(d.fs, Parent(dst)) && ValidName(Name(dst))
    ensures var r := RenameViaResuming(d, src, dst, prefix);
            r.ok && SameSubtree(r.disk.fs, dst, d.fs, TempPath(dst, prefix)) && Gone(r.disk.fs, TempPath(dst, prefix))
  {
    var temp := TempPath(dst, prefix);
    TempIsSibling(dst, prefix);
    assert !(temp <= dst + []) && dst + [] == dst;
    assert CanRename(d.fs, temp, dst);
  }

  /**
   deleteVia as the staging protocol intends it: when `p` is absent but the
   staging path is present, an earlier run stopped after staging, so the
   staged node is deleted and the deletion reported.
   */
  function DeleteViaResuming(d: Disk, p: Path, prefix: string): (r: Step)
    requires WellFormed(d.fs) && p != []
    ensures WellFormed(r.disk.fs)
  {
    var temp := TempPath(p, prefix);
    if p !in d.fs && temp in d.fs then DeleteStaged(d, p, temp) else DeleteVia(d, p, prefix)
  }

  /**
   Resuming from the state right after a successful staging rename ends in
   exactly the state and result of the uninterrupted deleteVia.
   */
  lemma DeleteViaResumingConverges(d: Disk, p: Path, prefix: string, staged: Step)
    requires WellFormed(d.fs) && p != []
    requires staged == Rename(DeleteRecursively(d, TempPath(p, prefix)).disk, p, TempPath(p, prefix))
    requires staged.ok
    ensures DeleteViaResuming(staged.disk, p, prefix) == DeleteVia(d, p, prefix)
  {
    StagedState(d, p, p, prefix);
  }

  /** Resuming a stopped deleteVia without faults removes a childless staged node and reports it. */
  lemma DeleteViaResumingCommits(d: Disk, p: Path, prefix: string)
    requires WellFormed(d.fs) && FaultFree(d) && p != []
    requires p !in d.fs && TempPath(p, prefix) in d.fs && Childless(d.fs, TempPath(p, prefix))
    ensures var r := DeleteViaResuming(d, p, prefix);
            r.ok && Gone(r.disk.fs, p) && Gone(r.disk.fs, TempPath(p, prefix))
  {
    var temp := TempPath(p, prefix);
    AbsentIsGone(d.fs, p);
    DeleteChildless(d, temp);
  }
}

=== FILE: seqs.dfy ===
/** Generic facts about sequences without repeated elements. */
module Seqs {

  /** No element occurs twice. */
  predicate Distinct<T(==)>(s: seq<T>)
  {
    forall i, j | 0 <= i < j < |s| :: s[i] != s[j]
  }

  /** An element of a sequence without repeats occurs in it at most once. */
  lemma {:induction false} DistinctCount<T>(s: seq<T>, x: T)
    requires Distinct(s)
    ensures multiset(s)[x] <= 1
  {
    if s != [] {
      assert s == [s[0]] + s[1..];
      DistinctCount(s[1..], x);
      if s[0] == x {
        assert x !in s[1..];
      }
    }
  }

  /** Two sequences without repeats and without common elements concatenate to one without repeats. */
  lemma DistinctConcat<T>(a: seq<T>, b: seq<T>)
    requires Distinct(a) && Distinct(b)
    requires forall x | x in a :: x !in b
    ensures Distinct(a + b)
  {
    var ab := a + b;
    forall i, j | 0 <= i < j < |ab| ensures ab[i] != ab[j] {
      if i < |a| && |a| <= j {
        assert ab[i] in a && ab[j] in b;
      }
    }
  }
}

=== FILE: staged.dfy ===
/**
 The staged ("via-temp") mutations of FileUtil: deleteRecursively, renameVia,
 deleteVia, mkdirVia and mkdirsVia, over the primitives of module Fs.
 */
module Staged {
  import opened Fs
  import Seqs

  lemma DescendantsShrink(before: Tree, after: Tree, p: Path)
    requires Shrinks(before, after)
    ensures |Descendants(after, p)| <= |Descendants(before, p)|
  {
    var a, b := Descendants(after, p), Descendants(before, p);
    assert a <= b;
    assert b == a + (b - a) && a !! (b - a);
  }

  lemma SiblingsDisjoint(p: Path, a: string, b: string, s: Path)
    requires a != b
    ensures !(p + [a] <= p + [b] + s)
  {
    var x, y := p + [a], p + [b] + s;
    assert x[|p|] == a && y[|p|] == b;
  }

  /** A change confined to the subtree of one child leaves the other children's subtrees alone. */
  lemma OtherChildrenUntouched(after: Tree, before: Tree, p: Path, names: seq<string>)
    requires names != [] && Seqs.Distinct(names)
    requires SameOutside(after, before, p + [names[0]])
    ensures forall j | 1 <= j < |names| :: SameSubtree(after, p + [names[j]], before, p + [names[j]])
  {
    forall j | 1 <= j < |names| ensures SameSubtree(after, p + [names[j]], before, p + [names[j]]) {
      forall s ensures Get(after, p + [names[j]] + s) == Get(before, p + [names[j]] + s) {
        SiblingsDisjoint(p, names[0], names[j], s);
        assert p + [names[j]] + s == p + ([names[j]] + s);
      }
    }
  }

  /** The induction step of the short-circuit guarantee, when the first child went fine. */
  lemma LaterFailureKeepsOrder(d: Tree, mid: Tree, r: Tree, p: Path, names: seq<string>)
    requires names != [] && Seqs.Distinct(names)
    requires SameOutside(mid, d, p + [names[0]]) && Gone(mid, p + [names[0]]) && Shrinks(mid, r)
    requires forall i, j | 0 <= i < j < |names[1..]| && !Gone(r, p + [names[1..][i]]) ::
               SameSubtree(r, p + [names[1..][j]], mid, p + [names[1..][j]])
    ensures forall i, j | 0 <= i < j < |names| && !Gone(r, p + [names[i]]) ::
              SameSubtree(r, p + [names[j]], d, p + [names[j]])
  {
    OtherChildrenUntouched(mid, d, p, names);
    forall i, j | 0 <= i < j < |names| && !Gone(r, p + [names[i]])
      ensures SameSubtree(r, p + [names[j]], d, p + [names[j]])
    {
      assert i > 0;
      assert names[1..][i - 1] == names[i] && names[1..][j - 1] == names[j];
    }
  }

  lemma SameOutsideWiden(a: Tree, b: Tree, c: Path, p: Path)
    requires SameOutside(a, b, c) && p < c
    ensures SameOutside(a, b, p) && Get(a, p) == Get(b, p)
  {
    forall q | !(p <= q) ensures Get(a, q) == Get(b, q) {
      assert !(c <= q);
    }
    assert !(c <= p);
  }

  lemma ShrinksTransitive(a: Tree, b: Tree, c: Tree)
    requires Shrinks(a, b) && Shrinks(b, c)
    ensures Shrinks(a, c)
  {
  }

  lemma SameOutsideTransitive(a: Tree, b: Tree, c: Tree, p: Path)
    requires SameOutside(a, b, p) && SameOutside(b, c, p)
    ensures SameOutside(a, c, p)
  {
  }

  /** Deleting a childless node removes its whole subtree and nothing else. */
  lemma DeleteChildless(d: Disk, p: Path)
    requires WellFormed(d.fs) && Delete(d, p).ok
    ensures Gone(Delete(d, p).disk.fs, p)
    ensures SameOutside(Delete(d, p).disk.fs, d.fs, p)
  {
    var r := Delete(d, p).disk.fs;
    forall q | q in r ensures !(p <= q) {
      assert q in d.fs && q != p;
    }
    forall q ensures !(p <= q) ==> Get(r, q) == Get(d.fs, q) {
    }
  }

  /**
   FileUtil.deleteRecursively: a directory's children are deleted in listing
   order, a directory child recursively; the first failure stops the walk, and the
   node itself is deleted only when every child was.
   */
  function DeleteRecursively(d: Disk, p: Path): (r: Step)
    requires WellFormed(d.fs)
    ensures WellFormed(r.disk.fs)
    ensures Shrinks(d.fs, r.disk.fs)
    ensures SameOutside(r.disk.fs, d.fs, p)
    ensures r.ok ==> Gone(r.disk.fs, p)
    ensures !r.ok && p in d.fs ==> p in r.disk.fs
    ensures FaultFree(d) ==> FaultFree(r.disk)
    decreases |Descendants(d.fs, p)|, 1
  {
    if IsDir(d.fs, p) then
      var children := DeleteChildren(d, p, ListFiles(d.fs, p));
      if children.ok then
        var r := Delete(children.disk, p);
        if r.ok then
          DeleteChildless(children.disk, p);
          SameOutsideTransitive(r.disk.fs, children.disk.fs, d.fs, p);
          ShrinksTransitive(d.fs, children.disk.fs, r.disk.fs);
          r
        else
          r
      else
        children
    else
      var r := Delete(d, p);
      if r.ok then
        DeleteChildless(d, p);
        r
      else
        r
  }

  /** The loop of deleteRecursively over the listed children `names` of `p`. */
  function DeleteChildren(d: Disk, p: Path, names: seq<string>): (r: Step)
    requires WellFormed(d.fs) && IsDir(d.fs, p) && Seqs.Distinct(names)
    ensures WellFormed(r.disk.fs)
    ensures Shrinks(d.fs, r.disk.fs)
    ensures IsDir(r.disk.fs, p)
    ensures SameOutside(r.disk.fs, d.fs, p)
    ensures FaultFree(d) ==> FaultFree(r.disk)
    ensures r.ok ==> forall n | n in names :: Gone(r.disk.fs, p + [n])
    ensures !r.ok ==> forall i, j | 0 <= i < j < |names| && !Gone(r.disk.fs, p + [names[i]]) ::
                        SameSubtree(r.disk.fs, p + [names[j]], d.fs, p + [names[j]])
    decreases |Descendants(d.fs, p)|, 0, |names|
  {
    if names == [] then
      Step(d, true)
    else
      var child := p + [names[0]];
      DescendantsOfChild(d.fs, p, child);
      // For a file child deleteRecursively calls `f.delete()` directly, which is
      // exactly what DeleteRecursively does with a node that is not a directory.
      var first := DeleteRecursively(d, child);
      SameOutsideWiden(first.disk.fs, d.fs, child, p);
      if !first.ok then
        OtherChildrenUntouched(first.disk.fs, d.fs, p, names);
        first
      else
        DescendantsShrink(d.fs, first.disk.fs, p);
        var rest := DeleteChildren(first.disk, p, names[1..]);
        ShrinksTransitive(d.fs, first.disk.fs, rest.disk.fs);
        SameOutsideTransitive(rest.disk.fs, first.disk.fs, d.fs, p);
        if rest.ok then
          rest
        else
          LaterFailureKeepsOrder(d.fs, first.disk.fs, rest.disk.fs, p, names);
          rest
  }

  /**
   With no injected failure, deleteRecursively removes any node but the root,
   with everything below it.
   */
  lemma {:induction false} DeleteRecursivelySucceeds(d: Disk, p: Path)
    requires WellFormed(d.fs) && FaultFree(d) && p != [] && p in d.fs
    ensures DeleteRecursively(d, p).ok
    decreases |Descendants(d.fs, p)|, 1
  {
    if IsDir(d.fs, p) {
      var names := ListFiles(d.fs, p);
      DeleteChildrenSucceeds(d, p, names);
      var children := DeleteChildren(d, p, names);
      AllChildrenGone(d.fs, children.disk.fs, p, names);
    } else {
      FileIsChildless(d.fs, p);
    }
  }

  lemma FileIsChildless(fs: Tree, p: Path)
    requires WellFormed(fs) && !IsDir(fs, p)
    ensures Childless(fs, p)
  {
    forall q | q in fs ensures !(p < q) {
      if p < q {
        AncestorIsDir(fs, q, p);
        assert false;
      }
    }
  }

  /** Once every listed child is gone, nothing is left below the directory. */
  lemma AllChildrenGone(before: Tree, after: Tree, p: Path, names: seq<string>)
    requires WellFormed(before) && Shrinks(before, after)
    requires forall n :: n in names <==> p + [n] in before
    requires forall n | n in names :: Gone(after, p + [n])
    ensures Childless(after, p)
  {
    forall q | q in after ensures !(p < q) {
      if p < q {
        ChildPresent(before, p, q);
        assert false;
      }
    }
  }

  lemma {:induction false} DeleteChildrenSucceeds(d: Disk, p: Path, names: seq<string>)
    requires WellFormed(d.fs) && IsDir(d.fs, p) && Seqs.Distinct(names) && FaultFree(d)
    requires forall i | 0 <= i < |names| :: p + [names[i]] in d.fs
    ensures DeleteChildren(d, p, names).ok
    decreases |Descendants(d.fs, p)|, 0, |names|
  {
    if names != [] {
      var child := p + [names[0]];
      DescendantsOfChild(d.fs, p, child);
      DeleteRecursivelySucceeds(d, child);
      var first := DeleteRecursively(d, child);
      SameOutsideWiden(first.disk.fs, d.fs, child, p);
      DescendantsShrink(d.fs, first.disk.fs, p);
      LaterSiblingsRemain(d.fs, first.disk.fs, p, names);
      DeleteChildrenSucceeds(first.disk, p, names[1..]);
    }
  }

  /** Removing the first listed child leaves every later listed sibling in place. */
  lemma LaterSiblingsRemain(before: Tree, after: Tree, p: Path, names: seq<string>)
    requires names != [] && Seqs.Distinct(names) && SameOutside(after, before, p + [names[0]])
    requires forall i | 0 <= i < |names| :: p + [names[i]] in before
    ensures forall i | 0 <= i < |names[1..]| :: p + [names[1..][i]] in after
  {
    forall i | 0 <= i < |names[1..]| ensures p + [names[1..][i]] in after {
      SiblingsDisjoint(p, names[0], names[i + 1], []);
      assert p + [names[i + 1]] + [] == p + [names[i + 1]];
      assert Get(after, p + [names[i + 1]]) == Get(before, p + [names[i + 1]]);
    }
  }

  /** The `i`-th listed child of `p` is still in `fs`, and every child listed before it is gone. */
  predicate FirstStanding(fs: Tree, p: Path, names: seq<string>, i: int)
  {
    0 <= i < |names| && p + [names[i]] in fs && forall j | 0 <= j < i :: Gone(fs, p + [names[j]])
  }

  /** A first failure among the later siblings is a first failure of the whole loop once the first child is gone. */
  lemma FailureAfterFirstChild(first: Tree, r: Tree, p: Path, names: seq<string>, i: int)
    requires Shrinks(first, r) && names != [] && Gone(first, p + [names[0]])
    requires FirstStanding(r, p, names[1..], i)
    ensures FirstStanding(r, p, names, i + 1)
  {
    forall j | 0 <= j < i + 1 ensures Gone(r, p + [names[j]]) {
      if j > 0 {
        assert names[j] == names[1..][j - 1];
      }
    }
  }

  /**
   deleteRecursively's loop over the children of `p` returning false: some
   listed child is still there, and every child listed before it is gone.
   */
  lemma {:induction false} DeleteChildrenStopsAtFirstFailure(d: Disk, p: Path, names: seq<string>)
    requires WellFormed(d.fs) && IsDir(d.fs, p) && Seqs.Distinct(names)
    requires forall i | 0 <= i < |names| :: p + [names[i]] in d.fs
    requires !DeleteChildren(d, p, names).ok
    ensures exists i :: FirstStanding(DeleteChildren(d, p, names).disk.fs, p, names, i)
    decreases |Descendants(d.fs, p)|, 0, |names|
  {
    var first := DeleteRecursively(d, p + [names[0]]);
    FirstChildStep(d, p, names);
    if !first.ok {
      assert FirstStanding(DeleteChildren(d, p, names).disk.fs, p, names, 0);
    } else {
      LaterSiblingsRemain(d.fs, first.disk.fs, p, names);
      DeleteChildrenStopsAtFirstFailure(first.disk, p, names[1..]);
      var rest := DeleteChildren(first.disk, p, names[1..]);
      var i :| FirstStanding(rest.disk.fs, p, names[1..], i);
      FailureAfterFirstChild(first.disk.fs, rest.disk.fs, p, names, i);
    }
  }

  /** One turn of deleteRecursively's loop: the first child is attempted, and on success the loop goes on with the rest. */
  lemma FirstChildStep(d: Disk, p: Path, names: seq<string>)
    requires WellFormed(d.fs) && IsDir(d.fs, p) && Seqs.Distinct(names) && names != []
    ensures var first := DeleteRecursively(d, p + [names[0]]);
            WellFormed(first.disk.fs) && IsDir(first.disk.fs, p) && Seqs.Distinct(names[1..]) &&
            SameOutside(first.disk.fs, d.fs, p + [names[0]]) &&
            |Descendants(first.disk.fs, p)| <= |Descendants(d.fs, p)| &&
            (!first.ok ==> DeleteChildren(d, p, names) == first) &&
            (first.ok ==> Gone(first.disk.fs, p + [names[0]]) && Shrinks(first.disk.fs, DeleteChildren(d, p, names).disk.fs) &&
                          DeleteChildren(d, p, names) == DeleteChildren(first.disk, p, names[1..]))
  {
    var child := p + [names[0]];
    DescendantsOfChild(d.fs, p, child);
    var first := DeleteRecursively(d, child);
    SameOutsideWiden(first.disk.fs, d.fs, child, p);
    DescendantsShrink(d.fs, first.disk.fs, p);
  }

  /** The staging path: `prefix` glued to the target's name, in the target's directory. */
  function TempPath(target: Path, prefix: string): (t: Path)
    requires target != []
    ensures t != [] && Parent(t) == Parent(target) && Name(t) == prefix + Name(target)
  {
    Parent(target) + [prefix + Name(target)]
  }

  /** The prefixes that the one-argument overloads of FileUtil's staged operations pass. */
  const DefaultRenamePrefix := ".ignore-rename-to-"
  const DefaultDeletePrefix := ".ignore-delete-from-"
  const DefaultMkdirPrefix := ".ignore-mkdir-"
  const DefaultMkdirsPrefix := ".ignore-mkdirs-"

  /**
   A prefix the staged operations can work with: it is not empty, so the
   staging path differs from the target, and glued to a valid name it gives a
   valid name, so the staging directory can be created and renamed to.
   */
  ghost predicate UsablePrefix(prefix: string)
  {
    prefix != "" && forall n | ValidName(n) :: ValidName(prefix + n)
  }

  /** Every default prefix is usable. */
  lemma DefaultPrefixesUsable()
    ensures UsablePrefix(DefaultRenamePrefix) && UsablePrefix(DefaultDeletePrefix)
    ensures UsablePrefix(DefaultMkdirPrefix) && UsablePrefix(DefaultMkdirsPrefix)
  {
  }

  /** With a usable prefix the staging path is a sibling distinct from the target. */
  lemma UsablePrefixStagesBeside(target: Path, prefix: string)
    requires target != [] && UsablePrefix(prefix)
    ensures TempPath(target, prefix) != target
    ensures ValidName(Name(target)) ==> ValidName(Name(TempPath(target, prefix)))
  {
  }

  /** renameVia(from, to): renameVia with its default prefix. */
  function RenameViaDefault(d: Disk, src: Path, dst: Path): Step
    requires WellFormed(d.fs) && dst != []
  {
    RenameVia(d, src, dst, DefaultRenamePrefix)
  }

  /** deleteVia(file): deleteVia with its default prefix. */
  function DeleteViaDefault(d: Disk, p: Path): Step
    requires WellFormed(d.fs) && p != []
  {
    DeleteVia(d, p, DefaultDeletePrefix)
  }

  /** mkdirVia(folder): mkdirVia with its default prefix. */
  function MkdirViaDefault(d: Disk, folder: Path): Step
    requires WellFormed(d.fs)
  {
    MkdirVia(d, folder, DefaultMkdirPrefix)
  }

  /** mkdirsVia(folder): mkdirsVia with its default prefix. */
  function MkdirsViaDefault(d: Disk, folder: Path): Step
    requires WellFormed(d.fs)
  {
    MkdirsVia(d, folder, DefaultMkdirsPrefix)
  }

  /** Distinct names make the target and its staging path siblings, neither below the other. */
  lemma TempIsSibling(target: Path, prefix: string)
    requires target != [] && prefix != []
    ensures forall s :: !(TempPath(target, prefix) <= target + s) && !(target <= TempPath(target, prefix) + s)
  {
    var t := TempPath(target, prefix);
    assert Name(t) != Name(target) by {
      assert |Name(t)| > |Name(target)|;
    }
    forall s ensures !(t <= target + s) && !(target <= t + s) {
      assert t == Parent(target) + [Name(t)];
      assert target == Parent(target) + [Name(target)];
      SiblingsDisjoint(Parent(target), Name(t), Name(target), s);
      SiblingsDisjoint(Parent(target), Name(target), Name(t), s);
    }
  }

  /**
   FileUtil.renameVia: clear the staging path, rename `src` onto it, then
   rename it onto `dst`; if the last rename fails, rename the staging path back.
   */
  function RenameVia(d: Disk, src: Path, dst: Path, prefix: string): (r: Step)
    requires WellFormed(d.fs) && dst != []
    ensures WellFormed(r.disk.fs)
    ensures forall q :: !(src <= q) && !(dst <= q) && !(TempPath(dst, prefix) <= q) ==> Get(r.disk.fs, q) == Get(d.fs, q)
  {
    var temp := TempPath(dst, prefix);
    var cleared := DeleteRecursively(d, temp);
    var staged := Rename(cleared.disk, src, temp);
    if !staged.ok then Step(staged.disk, false) else CommitStaged(staged.disk, src, dst, temp)
  }

  /** The second half of renameVia: commit the staging path onto `dst`, or rename it back to `src`. */
  function CommitStaged(d: Disk, src: Path, dst: Path, temp: Path): (r: Step)
    requires WellFormed(d.fs)
    ensures WellFormed(r.disk.fs)
  {
    var committed := Rename(d, temp, dst);
    if committed.ok then committed else Step(Rename(committed.disk, temp, src).disk, false)
  }

  /** A successful rename onto a cleared path never draws from that path's old subtree. */
  lemma StagedSourceClear(cleared: Tree, d: Tree, src: Path, temp: Path)
    requires WellFormed(cleared) && CanRename(cleared, src, temp)
    requires SameOutside(cleared, d, temp)
    ensures SameSubtree(cleared, src, d, src)
  {
    AbsentIsGone(cleared, temp);
    forall s ensures Get(cleared, src + s) == Get(d, src + s) {
      PrefixesComparable(temp, src, src + s);
    }
  }

  /** renameVia returning true: `dst` holds what `src` held, and `src` and the staging path are gone. */
  lemma RenameViaMoves(d: Disk, src: Path, dst: Path, prefix: string)
    requires WellFormed(d.fs) && dst != []
    requires RenameVia(d, src, dst, prefix).ok
    ensures SameSubtree(RenameVia(d, src, dst, prefix).disk.fs, dst, d.fs, src)
    ensures src != dst ==> Gone(RenameVia(d, src, dst, prefix).disk.fs, src)
    ensures Gone(RenameVia(d, src, dst, prefix).disk.fs, TempPath(dst, prefix))
  {
    var temp := TempPath(dst, prefix);
    var cleared := DeleteRecursively(d, temp);
    var staged := Rename(cleared.disk, src, temp);
    var committed := Rename(staged.disk, temp, dst);
    assert staged.ok && committed.ok;
    StagedSourceClear(cleared.disk.fs, d.fs, src, temp);
    var r := committed.disk.fs;
    forall s ensures Get(r, dst + s) == Get(d.fs, src + s) {
      assert Get(r, dst + s) == Get(staged.disk.fs, temp + s);
      assert Get(staged.disk.fs, temp + s) == Get(cleared.disk.fs, src + s);
    }
    if src != dst {
      forall q | q in r ensures !(src <= q) {
        SourceNotRefilled(cleared.disk.fs, staged.disk.fs, r, src, dst, temp, q);
      }
    }
  }

  lemma KeptOutside(after: Tree, before: Tree, a: Path, b: Path, q: Path)
    requires forall q :: !(a <= q) && !(b <= q) ==> Get(after, q) == Get(before, q)
    requires q in before && !(a <= q) && !(b <= q)
    ensures q in after
  {
    assert Get(after, q) == Get(before, q);
  }

  /** After the commit rename nothing is left below `src`, unless `src` is `dst` itself. */
  lemma SourceNotRefilled(cleared: Tree, staged: Tree, r: Tree, src: Path, dst: Path, temp: Path, q: Path)
    requires WellFormed(cleared) && src != dst && dst != [] && temp != [] && Parent(temp) == Parent(dst)
    requires CanRename(cleared, src, temp) && Gone(staged, src)
    requires forall q :: !(src <= q) && !(temp <= q) ==> Get(staged, q) == Get(cleared, q)
    requires CanRename(staged, temp, dst) && Gone(r, temp)
    requires forall q :: !(temp <= q) && !(dst <= q) ==> Get(r, q) == Get(staged, q)
    requires q in r
    ensures !(src <= q)
  {
    PrefixesComparable(src, dst, q);
    if !(temp <= q) && !(dst <= q) {
      assert Get(r, q) == Get(staged, q);
      assert q in staged;
    }
    if src <= q && dst <= q {
      if !(src <= dst) {
        AncestorIsDir(cleared, src, dst);
        KeptOutside(staged, cleared, src, temp, dst);
        assert false;
      }
    }
  }

  /**
   renameVia returning false: either nothing but the staging path changed, or
   the first rename went through, the content of `src` waits at the staging path
   and everything outside `src` and the staging path, `dst` included, is as before.
   */
  lemma RenameViaFailureLosesNothing(d: Disk, src: Path, dst: Path, prefix: string)
    requires WellFormed(d.fs) && dst != []
    requires !RenameVia(d, src, dst, prefix).ok
    ensures var r := RenameVia(d, src, dst, prefix).disk.fs;
            var temp := TempPath(dst, prefix);
            SameOutside(r, d.fs, temp) ||
            (SameSubtree(r, temp, d.fs, src) &&
             forall q :: !(src <= q) && !(temp <= q) ==> Get(r, q) == Get(d.fs, q))
  {
    var temp := TempPath(dst, prefix);
    var cleared := DeleteRecursively(d, temp);
    var staged := Rename(cleared.disk, src, temp);
    if staged.ok {
      var committed := Rename(staged.disk, temp, dst);
      var back := Rename(committed.disk, temp, src);
      assert !committed.ok && committed.disk.fs == staged.disk.fs;
      StagedSourceClear(cleared.disk.fs, d.fs, src, temp);
      if back.ok {
        RollbackRestores(d.fs, cleared.disk.fs, staged.disk.fs, back.disk.fs, src, temp);
      } else {
        forall s ensures Get(back.disk.fs, temp + s) == Get(d.fs, src + s) {
          assert Get(staged.disk.fs, temp + s) == Get(cleared.disk.fs, src + s);
        }
        forall q | !(src <= q) && !(temp <= q) ensures Get(back.disk.fs, q) == Get(d.fs, q) {
          assert Get(staged.disk.fs, q) == Get(cleared.disk.fs, q);
        }
      }
    }
  }

  /** Renaming the staged content back leaves only the cleared staging path changed. */
  lemma RollbackRestores(d: Tree, cleared: Tree, staged: Tree, back: Tree, src: Path, temp: Path)
    requires WellFormed(cleared) && CanRename(cleared, src, temp)
    requires SameOutside(cleared, d, temp)
    requires SameSubtree(staged, temp, cleared, src) && Gone(staged, src)
    requires forall q :: !(src <= q) && !(temp <= q) ==> Get(staged, q) == Get(cleared, q)
    requires SameSubtree(back, src, staged, temp) && Gone(back, temp)
    requires forall q :: !(src <= q) && !(temp <= q) ==> Get(back, q) == Get(staged, q)
    ensures SameOutside(back, d, temp)
  {
    AbsentIsGone(cleared, temp);
    forall q | !(temp <= q) ensures Get(back, q) == Get(d, q) {
      if src <= q {
        var s := q[|src|..];
        assert q == src + s;
        assert Get(back, src + s) == Get(staged, temp + s);
      }
    }
  }

  /** With no injected failure, a false renameVia changed nothing but the staging path. */
  lemma RenameViaRollsBack(d: Disk, src: Path, dst: Path, prefix: string)
    requires WellFormed(d.fs) && dst != [] && FaultFree(d)
    requires !RenameVia(d, src, dst, prefix).ok
    ensures SameOutside(RenameVia(d, src, dst, prefix).disk.fs, d.fs, TempPath(dst, prefix))
  {
    var temp := TempPath(dst, prefix);
    var cleared := DeleteRecursively(d, temp);
    var staged := Rename(cleared.disk, src, temp);
    if staged.ok {
      var committed := Rename(staged.disk, temp, dst);
      assert !committed.ok && committed.disk.fs == staged.disk.fs;
      RollbackPossible(cleared.disk.fs, staged.disk.fs, src, temp);
      StagedSourceClear(cleared.disk.fs, d.fs, src, temp);
      var back := Rename(committed.disk, temp, src);
      assert back.ok;
      RollbackRestores(d.fs, cleared.disk.fs, staged.disk.fs, back.disk.fs, src, temp);
    }
  }

  /**
   The commit of renameVia refused, for whatever reason: when the rename back
   is not refused too, the staged content is back at `src`, the staging path
   is empty, and nothing else changed.
   */
  lemma CommitStagedRollsBack(d: Disk, src: Path, dst: Path, temp: Path)
    requires WellFormed(d.fs) && !Rename(d, temp, dst).ok
    requires !Faulty(Rename(d, temp, dst).disk) && CanRename(d.fs, temp, src)
    ensures var r := CommitStaged(d, src, dst, temp);
            !r.ok && SameSubtree(r.disk.fs, src, d.fs, temp) && Gone(r.disk.fs, temp) &&
            forall q :: !(src <= q) && !(temp <= q) ==> Get(r.disk.fs, q) == Get(d.fs, q)
  {
  }

  /**
   renameVia whose commit is refused, by a fault or otherwise, after a
   successful staging rename: when the rename back is not refused by a fault,
   everything but the cleared staging path is as before.
   */
  lemma RenameViaRollsBackAfterRefusal(d: Disk, src: Path, dst: Path, prefix: string)
    requires WellFormed(d.fs) && dst != []
    requires var temp := TempPath(dst, prefix);
             var staged := Rename(DeleteRecursively(d, temp).disk, src, temp);
             staged.ok && !Rename(staged.disk, temp, dst).ok && !Faulty(Rename(staged.disk, temp, dst).disk)
    ensures !RenameVia(d, src, dst, prefix).ok
    ensures SameOutside(RenameVia(d, src, dst, prefix).disk.fs, d.fs, TempPath(dst, prefix))
  {
    var temp := TempPath(dst, prefix);
    StagedRollbackRestores(DeleteRecursively(d, temp).disk, d.fs, src, dst, temp);
  }

  /** From a cleared staging path: a staged move whose commit is refused, and whose rename back is not, restores the tree. */
  lemma StagedRollbackRestores(cleared: Disk, d: Tree, src: Path, dst: Path, temp: Path)
    requires WellFormed(cleared.fs) && SameOutside(cleared.fs, d, temp)
    requires Rename(cleared, src, temp).ok
    requires !Rename(Rename(cleared, src, temp).disk, temp, dst).ok
    requires !Faulty(Rename(Rename(cleared, src, temp).disk, temp, dst).disk)
    ensures var r := CommitStaged(Rename(cleared, src, temp).disk, src, dst, temp);
            !r.ok && SameOutside(r.disk.fs, d, temp)
  {
    var staged := Rename(cleared, src, temp);
    RollbackPossible(cleared.fs, staged.disk.fs, src, temp);
    StagedSourceClear(cleared.fs, d, src, temp);
    CommitStagedRollsBack(staged.disk, src, dst, temp);
    var back := CommitStaged(staged.disk, src, dst, temp);
    RollbackRestores(d, cleared.fs, staged.disk.fs, back.disk.fs, src, temp);
  }

  /** After the staging rename, renaming back is always possible. */
  lemma RollbackPossible(cleared: Tree, staged: Tree, src: Path, temp: Path)
    requires WellFormed(cleared) && CanRename(cleared, src, temp)
    requires SameSubtree(staged, temp, cleared, src) && Gone(staged, src)
    requires forall q :: !(src <= q) && !(temp <= q) ==> Get(staged, q) == Get(cleared, q)
    ensures CanRename(staged, temp, src)
  {
    AbsentIsGone(cleared, temp);
    assert temp + [] == temp && src + [] == src;
    assert Get(staged, temp + []) == Get(cleared, src + []);
    assert !(src <= Parent(src));
    PrefixesComparable(temp, Parent(src), src);
    assert !(temp <= Parent(src)) by {
      if temp <= Parent(src) {
        AncestorIsDir(cleared, src, temp);
      }
    }
    assert Get(staged, Parent(src)) == Get(cleared, Parent(src));
    assert !(temp <= src);
  }

  /**
   renameVia whose first rename fails: false, and only the staging path was
   cleared. So `src` keeps its subtree unless it and the staging path overlap.
   */
  lemma RenameViaStageFailure(d: Disk, src: Path, dst: Path, prefix: string)
    requires WellFormed(d.fs) && dst != []
    requires !Rename(DeleteRecursively(d, TempPath(dst, prefix)).disk, src, TempPath(dst, prefix)).ok
    ensures !RenameVia(d, src, dst, prefix).ok
    ensures SameOutside(RenameVia(d, src, dst, prefix).disk.fs, d.fs, TempPath(dst, prefix))
    ensures !(TempPath(dst, prefix) <= src) && !(src <= TempPath(dst, prefix)) ==>
              SameSubtree(RenameVia(d, src, dst, prefix).disk.fs, src, d.fs, src)
  {
    StagingChangeKeeps(RenameVia(d, src, dst, prefix).disk.fs, d.fs, src, dst, prefix);
  }

  /** renameVia whose first rename fails, with a non-empty prefix: `dst` keeps its subtree. */
  lemma RenameViaStageFailureKeepsTarget(d: Disk, src: Path, dst: Path, prefix: string)
    requires WellFormed(d.fs) && dst != [] && prefix != ""
    requires !Rename(DeleteRecursively(d, TempPath(dst, prefix)).disk, src, TempPath(dst, prefix)).ok
    ensures SameSubtree(RenameVia(d, src, dst, prefix).disk.fs, dst, d.fs, dst)
  {
    RenameViaStageFailure(d, src, dst, prefix);
    StagingChangeKeeps(RenameVia(d, src, dst, prefix).disk.fs, d.fs, src, dst, prefix);
  }

  /** A change confined below the staging path keeps `dst`, and `src` when the two are disjoint. */
  lemma StagingChangeKeeps(r: Tree, d: Tree, src: Path, dst: Path, prefix: string)
    requires dst != [] && SameOutside(r, d, TempPath(dst, prefix))
    ensures !(TempPath(dst, prefix) <= src) && !(src <= TempPath(dst, prefix)) ==> SameSubtree(r, src, d, src)
    ensures prefix != "" ==> SameSubtree(r, dst, d, dst)
  {
    var temp := TempPath(dst, prefix);
    if !(temp <= src) && !(src <= temp) {
      DisjointKept(r, d, temp, src);
    }
    if prefix != "" {
      TempIsSibling(dst, prefix);
      assert !(temp <= dst + []) && !(dst <= temp + []) && dst + [] == dst && temp + [] == temp;
      DisjointKept(r, d, temp, dst);
    }
  }

  /** A change confined below `c` leaves the subtree of any `x` disjoint from `c` as it was. */
  lemma DisjointKept(a: Tree, b: Tree, c: Path, x: Path)
    requires SameOutside(a, b, c) && !(c <= x) && !(x <= c)
    ensures SameSubtree(a, x, b, x)
  {
    forall s ensures Get(a, x + s) == Get(b, x + s) {
      PrefixesComparable(c, x, x + s);
    }
  }

  /** The clean-up of a staging path leaves nothing there and the rest as it was. */
  lemma StagingCleared(d: Disk, temp: Path)
    requires WellFormed(d.fs) && FaultFree(d) && temp != []
    ensures var c := DeleteRecursively(d, temp).disk;
            Gone(c.fs, temp) && FaultFree(c) && SameOutside(c.fs, d.fs, temp)
  {
    if temp in d.fs {
      DeleteRecursivelySucceeds(d, temp);
    } else {
      AbsentIsGone(d.fs, temp);
    }
  }

  /** A path strictly above `dst`'s staging sibling lies above `dst` itself. */
  lemma AboveStagingIsAboveTarget(a: Path, dst: Path, prefix: string)
    requires dst != [] && a < TempPath(dst, prefix)
    ensures a <= Parent(dst) && a <= dst
  {
    var t := TempPath(dst, prefix);
    assert a == t[..|a|] && Parent(t) == t[..|t| - 1];
    assert a <= Parent(t);
  }

  /** Equal subtrees have equal roots. */
  lemma SubtreeRoot(a: Tree, pa: Path, b: Tree, pb: Path)
    requires SameSubtree(a, pa, b, pb)
    ensures Get(a, pa) == Get(b, pb)
  {
    assert pa + [] == pa && pb + [] == pb;
  }

  /**
   Without injected faults, renameVia moves a present `src` onto an absent
   `dst` under a directory, as long as the staging name is valid and the
   staging path lies neither inside `src` nor above it.
   */
  lemma RenameViaSucceeds(d: Disk, src: Path, dst: Path, prefix: string)
    requires WellFormed(d.fs) && FaultFree(d)
    requires src != [] && src in d.fs
    requires dst != [] && dst !in d.fs && IsDir(d.fs, Parent(dst)) && ValidName(Name(dst))
    requires prefix != "" && ValidName(prefix + Name(dst))
    requires !(src <= dst) && !(TempPath(dst, prefix) <= src)
    ensures RenameVia(d, src, dst, prefix).ok
  {
    var temp := TempPath(dst, prefix);
    StagingCleared(d, temp);
    var cleared := DeleteRecursively(d, temp);
    PrefixOfParent(src, dst);
    StagePossible(d.fs, cleared.disk.fs, src, dst, prefix);
    var staged := Rename(cleared.disk, src, temp);
    CommitPossible(d.fs, cleared.disk.fs, staged.disk.fs, src, dst, prefix);
    assert Rename(staged.disk, temp, dst).ok;
  }

  /** After the clean-up, the staging rename of renameVia is possible. */
  lemma StagePossible(d: Tree, c: Tree, src: Path, dst: Path, prefix: string)
    requires dst != [] && IsDir(d, Parent(dst))
    requires WellFormed(c) && Gone(c, TempPath(dst, prefix)) && SameOutside(c, d, TempPath(dst, prefix))
    requires src != [] && src in d
    requires ValidName(prefix + Name(dst))
    requires !(src <= Parent(dst)) && !(TempPath(dst, prefix) <= src)
    ensures CanRename(c, src, TempPath(dst, prefix))
  {
    var temp := TempPath(dst, prefix);
    assert !(temp <= Parent(dst)) by {
      assert |Parent(dst)| < |temp|;
    }
    assert Get(c, src) == Get(d, src);
    assert Get(c, Parent(dst)) == Get(d, Parent(dst));
    assert temp !in c by {
      assert temp <= temp;
    }
    assert !(src <= temp) by {
      if src <= temp {
        AboveStagingIsAboveTarget(src, dst, prefix);
      }
    }
  }

  /** After the staging rename, the commit rename of renameVia is possible. */
  lemma CommitPossible(d: Tree, c: Tree, st: Tree, src: Path, dst: Path, prefix: string)
    requires dst != [] && dst !in d && IsDir(d, Parent(dst)) && ValidName(Name(dst))
    requires SameOutside(c, d, TempPath(dst, prefix)) && CanRename(c, src, TempPath(dst, prefix))
    requires SameSubtree(st, TempPath(dst, prefix), c, src)
    requires forall q :: !(src <= q) && !(TempPath(dst, prefix) <= q) ==> Get(st, q) == Get(c, q)
    requires prefix != "" && !(src <= dst)
    ensures CanRename(st, TempPath(dst, prefix), dst)
  {
    var temp := TempPath(dst, prefix);
    TempIsSibling(dst, prefix);
    assert !(temp <= dst + []) && dst + [] == dst;
    assert !(temp <= Parent(dst)) by {
      assert |Parent(dst)| < |temp|;
    }
    assert Get(st, temp + []) == Get(c, src + []);
    assert temp + [] == temp && src + [] == src;
    PrefixOfParent(src, dst);
    assert Get(st, Parent(dst)) == Get(c, Parent(dst)) == Get(d, Parent(dst));
    assert Get(st, dst) == Get(c, dst) == Get(d, dst);
  }

  /**
   When the staging path and `src` are disjoint, a false renameVia leaves the
   source's content in one of two places: back at `src`, or at the staging path.
   */
  lemma RenameViaFailureKeepsSource(d: Disk, src: Path, dst: Path, prefix: string)
    requires WellFormed(d.fs) && dst != []
    requires !(TempPath(dst, prefix) <= src) && !(src <= TempPath(dst, prefix))
    requires !RenameVia(d, src, dst, prefix).ok
    ensures var r := RenameVia(d, src, dst, prefix).disk.fs;
            SameSubtree(r, src, d.fs, src) || SameSubtree(r, TempPath(dst, prefix), d.fs, src)
  {
    var temp := TempPath(dst, prefix);
    var r := RenameVia(d, src, dst, prefix).disk.fs;
    RenameViaFailureLosesNothing(d, src, dst, prefix);
    forall s ensures !(temp <= src + s) {
      PrefixesComparable(temp, src, src + s);
    }
  }

  /**
   The clean-up at the start of renameVia deletes whatever lies at the staging
   path, even when that is `src` or lies inside it: the source is then lost
   and the result is false.
   */
  lemma RenameViaFromStaging(d: Disk, src: Path, dst: Path, prefix: string)
    requires WellFormed(d.fs) && FaultFree(d) && dst != [] && TempPath(dst, prefix) <= src
    ensures var r := RenameVia(d, src, dst, prefix);
            !r.ok && Gone(r.disk.fs, TempPath(dst, prefix)) && Gone(r.disk.fs, src)
  {
    var temp := TempPath(dst, prefix);
    StagingCleared(d, temp);
    var cleared := DeleteRecursively(d, temp);
    assert src !in cleared.disk.fs;
  }

  /**
   A renameVia stopped after its staging rename leaves `src` absent and the
   content at the staging path. Running it again does not finish the move: the
   clean-up deletes the staged content and the result is false.
   */
  lemma RenameViaRerunDiscardsStaged(d: Disk, src: Path, dst: Path, prefix: string)
    requires WellFormed(d.fs) && FaultFree(d) && dst != []
    requires src !in d.fs && TempPath(dst, prefix) in d.fs
    ensures var r := RenameVia(d, src, dst, prefix);
            !r.ok && Gone(r.disk.fs, TempPath(dst, prefix))
  {
    var temp := TempPath(dst, prefix);
    StagingCleared(d, temp);
  }

  /**
   FileUtil.deleteVia: clear the staging path, rename `p` onto it, then delete
   it with a single, non-recursive delete; if that fails, rename it back.
   */
  function DeleteVia(d: Disk, p: Path, prefix: string): (r: Step)
    requires WellFormed(d.fs) && p != []
    ensures WellFormed(r.disk.fs)
    ensures r.ok ==> Gone(r.disk.fs, p) && Gone(r.disk.fs, TempPath(p, prefix))
  {
    var temp := TempPath(p, prefix);
    var cleared := DeleteRecursively(d, temp);
    var staged := Rename(cleared.disk, p, temp);
    if !staged.ok then Step(staged.disk, false) else DeleteStaged(staged.disk, p, temp)
  }

  /** The second half of deleteVia: delete the staging path, or rename it back to `p`. */
  function DeleteStaged(d: Disk, p: Path, temp: Path): (r: Step)
    requires WellFormed(d.fs)
    ensures WellFormed(r.disk.fs)
    ensures r.ok ==> Gone(r.disk.fs, temp) && SameOutside(r.disk.fs, d.fs, temp)
  {
    var removed := Delete(d, temp);
    if removed.ok then
      DeleteChildless(d, temp);
      removed
    else
      Step(Rename(removed.disk, temp, p).disk, false)
  }

  /** Whatever deleteVia returns, only the subtrees of `p` and of its staging path can change. */
  lemma DeleteViaFrame(d: Disk, p: Path, prefix: string)
    requires WellFormed(d.fs) && p != []
    ensures var r := DeleteVia(d, p, prefix).disk.fs;
            forall q :: !(p <= q) && !(TempPath(p, prefix) <= q) ==> Get(r, q) == Get(d.fs, q)
  {
    var temp := TempPath(p, prefix);
    var cleared := DeleteRecursively(d, temp);
    var staged := Rename(cleared.disk, p, temp);
    if staged.ok {
      var removed := Delete(staged.disk, temp);
      ClearedKeepsOthers(staged.disk.fs, removed.disk.fs, temp);
      var last := if removed.ok then removed.disk.fs else Rename(removed.disk, temp, p).disk.fs;
      FrameOfStages(d.fs, cleared.disk.fs, staged.disk.fs, removed.disk.fs, last, p, temp);
    }
  }

  lemma FrameOfStages(d: Tree, cleared: Tree, staged: Tree, removed: Tree, last: Tree, p: Path, temp: Path)
    requires SameOutside(cleared, d, temp)
    requires forall q :: !(p <= q) && !(temp <= q) ==> Get(staged, q) == Get(cleared, q)
    requires forall q :: q != temp ==> Get(removed, q) == Get(staged, q)
    requires forall q :: !(p <= q) && !(temp <= q) ==> Get(last, q) == Get(removed, q)
    ensures forall q :: !(p <= q) && !(temp <= q) ==> Get(last, q) == Get(d, q)
  {
    forall q | !(p <= q) && !(temp <= q) ensures Get(last, q) == Get(d, q) {
      assert q != temp;
    }
  }

  /** A directory with something in it is never deleted by deleteVia. */
  lemma DeleteViaKeepsNonEmptyDir(d: Disk, p: Path, prefix: string)
    requires WellFormed(d.fs) && p != [] && !Childless(d.fs, p)
    ensures !DeleteVia(d, p, prefix).ok
  {
    var temp := TempPath(p, prefix);
    var cleared := DeleteRecursively(d, temp);
    var staged := Rename(cleared.disk, p, temp);
    if staged.ok {
      StagedSourceClear(cleared.disk.fs, d.fs, p, temp);
      StagedKeepsChildren(d.fs, staged.disk.fs, p, temp);
      assert !Delete(staged.disk, temp).ok;
    }
  }

  lemma StagedKeepsChildren(d: Tree, staged: Tree, p: Path, temp: Path)
    requires !Childless(d, p)
    requires forall s :: Get(staged, temp + s) == Get(d, p + s)
    ensures !Childless(staged, temp)
  {
    var q :| q in d && p < q;
    var s := q[|p|..];
    assert q == p + s && s != [];
    assert Get(staged, temp + s) == Get(d, p + s);
    assert temp < temp + s;
  }

  /**
   deleteVia returning false: either nothing but the staging path changed, or
   the content of `p` waits at the staging path and everything outside `p` and
   the staging path is as before.
   */
  lemma DeleteViaFailureLosesNothing(d: Disk, p: Path, prefix: string)
    requires WellFormed(d.fs) && p != []
    requires !DeleteVia(d, p, prefix).ok
    ensures var r := DeleteVia(d, p, prefix).disk.fs;
            var temp := TempPath(p, prefix);
            SameOutside(r, d.fs, temp) ||
            (SameSubtree(r, temp, d.fs, p) &&
             forall q :: !(p <= q) && !(temp <= q) ==> Get(r, q) == Get(d.fs, q))
  {
    var temp := TempPath(p, prefix);
    var cleared := DeleteRecursively(d, temp);
    var staged := Rename(cleared.disk, p, temp);
    if staged.ok {
      var removed := Delete(staged.disk, temp);
      var back := Rename(removed.disk, temp, p);
      assert !removed.ok && removed.disk.fs == staged.disk.fs;
      StagedSourceClear(cleared.disk.fs, d.fs, p, temp);
      if back.ok {
        RollbackRestores(d.fs, cleared.disk.fs, staged.disk.fs, back.disk.fs, p, temp);
      } else {
        forall s ensures Get(back.disk.fs, temp + s) == Get(d.fs, p + s) {
          assert Get(staged.disk.fs, temp + s) == Get(cleared.disk.fs, p + s);
        }
        forall q | !(p <= q) && !(temp <= q) ensures Get(back.disk.fs, q) == Get(d.fs, q) {
          assert Get(staged.disk.fs, q) == Get(cleared.disk.fs, q);
        }
      }
    }
  }

  /** With no injected failure, a false deleteVia changed nothing but the staging path. */
  lemma DeleteViaRollsBack(d: Disk, p: Path, prefix: string)
    requires WellFormed(d.fs) && p != [] && FaultFree(d)
    requires !DeleteVia(d, p, prefix).ok
    ensures SameOutside(DeleteVia(d, p, prefix).disk.fs, d.fs, TempPath(p, prefix))
  {
    var temp := TempPath(p, prefix);
    var cleared := DeleteRecursively(d, temp);
    var staged := Rename(cleared.disk, p, temp);
    if staged.ok {
      var removed := Delete(staged.disk, temp);
      assert !removed.ok && removed.disk.fs == staged.disk.fs;
      RollbackPossible(cleared.disk.fs, staged.disk.fs, p, temp);
      StagedSourceClear(cleared.disk.fs, d.fs, p, temp);
      var back := Rename(removed.disk, temp, p);
      assert back.ok;
      RollbackRestores(d.fs, cleared.disk.fs, staged.disk.fs, back.disk.fs, p, temp);
    }
  }

  /**
   The delete of deleteVia refused, for whatever reason: when the rename back
   is not refused too, the staged node is back at `p`, the staging path is
   empty, and nothing else changed.
   */
  lemma DeleteStagedRollsBack(d: Disk, p: Path, temp: Path)
    requires WellFormed(d.fs) && !Delete(d, temp).ok
    requires !Faulty(Delete(d, temp).disk) && CanRename(d.fs, temp, p)
    ensures var r := DeleteStaged(d, p, temp);
            !r.ok && SameSubtree(r.disk.fs, p, d.fs, temp) && Gone(r.disk.fs, temp) &&
            forall q :: !(p <= q) && !(temp <= q) ==> Get(r.disk.fs, q) == Get(d.fs, q)
  {
  }

  /**
   deleteVia whose delete is refused, by a fault or because the node has
   children, after a successful staging rename: when the rename back is not
   refused by a fault, everything but the cleared staging path is as before.
   */
  lemma DeleteViaRollsBackAfterRefusal(d: Disk, p: Path, prefix: string)
    requires WellFormed(d.fs) && p != []
    requires var temp := TempPath(p, prefix);
             var staged := Rename(DeleteRecursively(d, temp).disk, p, temp);
             staged.ok && !Delete(staged.disk, temp).ok && !Faulty(Delete(staged.disk, temp).disk)
    ensures !DeleteVia(d, p, prefix).ok
    ensures SameOutside(DeleteVia(d, p, prefix).disk.fs, d.fs, TempPath(p, prefix))
  {
    var temp := TempPath(p, prefix);
    StagedDeleteRestores(DeleteRecursively(d, temp).disk, d.fs, p, temp);
  }

  /** From a cleared staging path: a staged node whose delete is refused, and whose rename back is not, is restored. */
  lemma StagedDeleteRestores(cleared: Disk, d: Tree, p: Path, temp: Path)
    requires WellFormed(cleared.fs) && SameOutside(cleared.fs, d, temp)
    requires Rename(cleared, p, temp).ok
    requires !Delete(Rename(cleared, p, temp).disk, temp).ok
    requires !Faulty(Delete(Rename(cleared, p, temp).disk, temp).disk)
    ensures var r := DeleteStaged(Rename(cleared, p, temp).disk, p, temp);
            !r.ok && SameOutside(r.disk.fs, d, temp)
  {
    var staged := Rename(cleared, p, temp);
    RollbackPossible(cleared.fs, staged.disk.fs, p, temp);
    StagedSourceClear(cleared.fs, d, p, temp);
    DeleteStagedRollsBack(staged.disk, p, temp);
    var back := DeleteStaged(staged.disk, p, temp);
    RollbackRestores(d, cleared.fs, staged.disk.fs, back.disk.fs, p, temp);
  }

  /**
   Without injected faults, deleteVia removes a present file or empty
   directory, as long as the staging name is valid and differs from the name.
   */
  lemma DeleteViaSucceeds(d: Disk, p: Path, prefix: string)
    requires WellFormed(d.fs) && FaultFree(d)
    requires p != [] && p in d.fs && Childless(d.fs, p)
    requires prefix != "" && ValidName(prefix + Name(p))
    ensures DeleteVia(d, p, prefix).ok
  {
    var temp := TempPath(p, prefix);
    StagingCleared(d, temp);
    var cleared := DeleteRecursively(d, temp);
    TempIsSibling(p, prefix);
    assert !(temp <= p + []) && p + [] == p;
    StagePossible(d.fs, cleared.disk.fs, p, p, prefix);
    var staged := Rename(cleared.disk, p, temp);
    StagedSourceClear(cleared.disk.fs, d.fs, p, temp);
    ChildlessMoved(staged.disk.fs, temp, d.fs, p);
    assert Delete(staged.disk, temp).ok;
  }

  lemma ChildlessMoved(a: Tree, pa: Path, b: Tree, pb: Path)
    requires SameSubtree(a, pa, b, pb) && pa + [] in a && Childless(b, pb)
    ensures pa in a && Childless(a, pa)
  {
    assert pa + [] == pa;
    forall q | q in a ensures !(pa < q) {
      var s := if |pa| <= |q| then q[|pa|..] else [];
      assert pa < q ==> q == pa + s && pb < pb + s;
      assert Get(a, pa + s) == Get(b, pb + s);
    }
  }

  /**
   With a non-empty prefix, a false deleteVia leaves the content of `p` in one
   of two places: back at `p`, or at the staging path.
   */
  lemma DeleteViaFailureKeepsContent(d: Disk, p: Path, prefix: string)
    requires WellFormed(d.fs) && p != [] && prefix != ""
    requires !DeleteVia(d, p, prefix).ok
    ensures var r := DeleteVia(d, p, prefix).disk.fs;
            SameSubtree(r, p, d.fs, p) || SameSubtree(r, TempPath(p, prefix), d.fs, p)
  {
    DeleteViaFailureLosesNothing(d, p, prefix);
    TempIsSibling(p, prefix);
  }

  /**
   With the empty prefix the staging path is `p` itself: the clean-up deletes
   `p` with everything below it, and the result is still false.
   */
  lemma DeleteViaEmptyPrefixDeletes(d: Disk, p: Path)
    requires WellFormed(d.fs) && FaultFree(d) && p != [] && p in d.fs
    ensures var r := DeleteVia(d, p, "");
            !r.ok && Gone(r.disk.fs, p)
  {
    assert Parent(p) + [Name(p)] == p && "" + Name(p) == Name(p);
    assert TempPath(p, "") == p;
    StagingCleared(d, p);
  }

  /**
   A deleteVia stopped after its staging rename leaves `p` absent and the
   content at the staging path. Running it again clears the staging path but
   reports false.
   */
  lemma DeleteViaRerunReportsFailure(d: Disk, p: Path, prefix: string)
    requires WellFormed(d.fs) && FaultFree(d) && p != []
    requires p !in d.fs && TempPath(p, prefix) in d.fs
    ensures var r := DeleteVia(d, p, prefix);
            !r.ok && Gone(r.disk.fs, TempPath(p, prefix))
  {
    StagingCleared(d, TempPath(p, prefix));
  }

  /**
   FileUtil.mkdirVia: an existing `folder` is success; otherwise, with its parent
   present, create the staging directory (after a plain, non-recursive delete of
   whatever is there) and rename it onto `folder`; if that rename fails, delete
   the staging directory again.
   */
  function MkdirVia(d: Disk, folder: Path, prefix: string): (r: Step)
    requires WellFormed(d.fs)
    ensures WellFormed(r.disk.fs)
    ensures folder in d.fs ==> r == Step(d, true)
    ensures folder !in d.fs && folder != [] && Parent(folder) !in d.fs ==> r == Step(d, false)
    ensures FaultFree(d) ==> FaultFree(r.disk)
  {
    if folder in d.fs then
      Step(d, true)
    else if Parent(folder) !in d.fs then
      Step(d, false)
    else
      var temp := TempPath(folder, prefix);
      var cleared := Delete(d, temp);
      var made := Mkdir(cleared.disk, temp);
      if !made.ok then
        Step(made.disk, false)
      else
        var moved := Rename(made.disk, temp, folder);
        if moved.ok then
          moved
        else
          Step(Delete(moved.disk, temp).disk, false)
  }

  /** A freshly created directory, renamed into place, arrives empty and leaves nothing behind. */
  lemma FreshDirMoved(d: Tree, made: Tree, moved: Tree, temp: Path, folder: Path)
    requires WellFormed(d) && temp !in d && folder !in d
    requires made == d[temp := Dir]
    requires SameSubtree(moved, folder, made, temp) && Gone(moved, temp)
    requires forall q :: !(temp <= q) && !(folder <= q) ==> Get(moved, q) == Get(made, q)
    ensures IsDir(moved, folder) && Childless(moved, folder)
    ensures forall q :: q != folder && q != temp ==> Get(moved, q) == Get(d, q)
  {
    AbsentIsGone(d, temp);
    AbsentIsGone(d, folder);
    assert Get(moved, folder + []) == Get(made, temp + []);
    assert folder + [] == folder && temp + [] == temp;
    forall q | q in moved ensures !(folder < q) {
      if folder < q {
        NothingBelowMoved(made, moved, temp, folder, q);
        assert false;
      }
    }
    forall q | q != folder && q != temp ensures Get(moved, q) == Get(d, q) {
      if folder <= q {
        assert q in moved ==> folder < q;
      }
    }
  }

  lemma NothingBelowMoved(made: Tree, moved: Tree, temp: Path, folder: Path, q: Path)
    requires Childless(made, temp) && SameSubtree(moved, folder, made, temp) && folder < q
    ensures q !in moved
  {
    var s := q[|folder|..];
    assert q == folder + s;
    assert Get(moved, folder + s) == Get(made, temp + s);
    assert temp < temp + s;
  }

  /**
   mkdirVia returning true on an absent `folder`: an empty directory now sits
   there, the staging path is gone, and nothing else changed.
   */
  lemma MkdirViaCreates(d: Disk, folder: Path, prefix: string)
    requires WellFormed(d.fs) && folder !in d.fs
    requires MkdirVia(d, folder, prefix).ok
    ensures var r := MkdirVia(d, folder, prefix).disk.fs;
            IsDir(r, folder) && Childless(r, folder) && TempPath(folder, prefix) !in r
    ensures var r := MkdirVia(d, folder, prefix).disk.fs;
            forall q :: q != folder && q != TempPath(folder, prefix) ==> Get(r, q) == Get(d.fs, q)
  {
    var temp := TempPath(folder, prefix);
    var cleared := Delete(d, temp);
    var made := Mkdir(cleared.disk, temp);
    var moved := Rename(made.disk, temp, folder);
    assert MkdirVia(d, folder, prefix) == moved;
    var c: Tree := cleared.disk.fs;
    assert temp !in c && folder !in c;
    ClearedKeepsOthers(d.fs, c, temp);
    FreshDirMoved(c, made.disk.fs, moved.disk.fs, temp, folder);
  }

  lemma ClearedKeepsOthers(before: Tree, after: Tree, p: Path)
    requires Shrinks(before, after) && after.Keys >= before.Keys - {p}
    ensures forall q :: q != p ==> Get(after, q) == Get(before, q)
  {
  }

  /**
   mkdirVia returning false: the only path that may differ is the staging path,
   and with a non-empty prefix `folder` itself was not created.
   */
  lemma MkdirViaFailure(d: Disk, folder: Path, prefix: string)
    requires WellFormed(d.fs) && !MkdirVia(d, folder, prefix).ok
    ensures folder != [] && folder !in d.fs
    ensures var r := MkdirVia(d, folder, prefix).disk.fs;
            forall q :: q != TempPath(folder, prefix) ==> Get(r, q) == Get(d.fs, q)
    ensures prefix != "" ==> folder !in MkdirVia(d, folder, prefix).disk.fs
  {
    if Parent(folder) in d.fs {
      var temp := TempPath(folder, prefix);
      var cleared := Delete(d, temp);
      ClearedKeepsOthers(d.fs, cleared.disk.fs, temp);
      var made := Mkdir(cleared.disk, temp);
      if made.ok {
        var moved := Rename(made.disk, temp, folder);
        var undone := Delete(moved.disk, temp);
        ClearedKeepsOthers(moved.disk.fs, undone.disk.fs, temp);
        if prefix != "" {
          assert Name(temp) != Name(folder) by {
            assert |Name(temp)| > |Name(folder)|;
          }
        }
      }
    }
  }

  /**
   mkdirVia whose staging directory was created but could not be renamed onto
   `folder`: unless the clean-up delete itself draws a fault, the staging
   directory is removed again.
   */
  lemma MkdirViaRemovesStaging(d: Disk, folder: Path, prefix: string)
    requires WellFormed(d.fs) && folder !in d.fs && Parent(folder) in d.fs
    requires var temp := TempPath(folder, prefix);
             var made := Mkdir(Delete(d, temp).disk, temp);
             made.ok && !Rename(made.disk, temp, folder).ok &&
             !Faulty(Rename(made.disk, temp, folder).disk)
    ensures !MkdirVia(d, folder, prefix).ok
    ensures TempPath(folder, prefix) !in MkdirVia(d, folder, prefix).disk.fs
  {
    var temp := TempPath(folder, prefix);
    var cleared := Delete(d, temp);
    var made := Mkdir(cleared.disk, temp);
    AbsentIsGone(cleared.disk.fs, temp);
    assert Childless(made.disk.fs, temp);
  }

  /**
   Without faults, mkdirVia creates an absent `folder` whose parent is a
   directory, provided the staging name is a valid name distinct from the
   target and nothing lives below the staging path.
   */
  lemma MkdirViaSucceeds(d: Disk, folder: Path, prefix: string)
    requires WellFormed(d.fs) && FaultFree(d)
    requires folder != [] && IsDir(d.fs, Parent(folder)) && ValidName(Name(folder))
    requires prefix != "" && ValidName(prefix + Name(folder)) && Childless(d.fs, TempPath(folder, prefix))
    ensures MkdirVia(d, folder, prefix).ok
  {
    if folder !in d.fs {
      var temp := TempPath(folder, prefix);
      assert Name(temp) != Name(folder) by {
        assert |Name(temp)| > |Name(folder)|;
      }
      var cleared := Delete(d, temp);
      assert FaultFree(cleared.disk);
      ClearedKeepsOthers(d.fs, cleared.disk.fs, temp);
      assert temp !in cleared.disk.fs;
      var made := Mkdir(cleared.disk, temp);
      assert made.ok;
      assert CanRename(made.disk.fs, temp, folder);
    }
  }

  /** mkdirVia changes at most `folder` and its staging path, whatever it returns. */
  lemma MkdirViaFrame(d: Disk, folder: Path, prefix: string)
    requires WellFormed(d.fs)
    ensures var r := MkdirVia(d, folder, prefix).disk.fs;
            forall q :: q != folder && (folder == [] || q != TempPath(folder, prefix)) ==> Get(r, q) == Get(d.fs, q)
  {
    if folder !in d.fs {
      if MkdirVia(d, folder, prefix).ok {
        MkdirViaCreates(d, folder, prefix);
      } else {
        MkdirViaFailure(d, folder, prefix);
      }
    }
  }

  /** `q` is the staging path mkdirsVia may use for some ancestor-or-self of `folder`. */
  predicate StagingAlong(q: Path, folder: Path, prefix: string)
  {
    0 < |q| <= |folder| && q == TempPath(folder[..|q|], prefix)
  }

  /**
   FileUtil.mkdirsVia: an existing `folder` is success; otherwise a missing
   parent is first created the same way, and a failure there ends the call
   before `folder` itself is attempted.
   */
  function MkdirsVia(d: Disk, folder: Path, prefix: string): (r: Step)
    requires WellFormed(d.fs)
    ensures WellFormed(r.disk.fs)
    ensures folder in d.fs ==> r == Step(d, true)
    ensures FaultFree(d) ==> FaultFree(r.disk)
    decreases |folder|
  {
    if folder in d.fs then
      Step(d, true)
    else
      var up := if Parent(folder) in d.fs then Step(d, true) else MkdirsVia(d, Parent(folder), prefix);
      if !up.ok then
        Step(up.disk, false)
      else
        MkdirVia(up.disk, folder, prefix)
  }

  /** Paths touched for the parent are paths touched for the child. */
  lemma AlongParent(q: Path, folder: Path, prefix: string)
    requires folder != []
    ensures q <= Parent(folder) ==> q <= folder
    ensures StagingAlong(q, Parent(folder), prefix) ==> StagingAlong(q, folder, prefix)
  {
    if 0 < |q| <= |Parent(folder)| {
      assert Parent(folder)[..|q|] == folder[..|q|];
    }
  }

  /**
   mkdirsVia changes nothing but `folder`, its ancestors, and the staging
   siblings of those.
   */
  lemma {:induction false} MkdirsViaFrame(d: Disk, folder: Path, prefix: string)
    requires WellFormed(d.fs)
    ensures var r := MkdirsVia(d, folder, prefix).disk.fs;
            forall q :: !(q <= folder) && !StagingAlong(q, folder, prefix) ==> Get(r, q) == Get(d.fs, q)
    decreases |folder|
  {
    if folder !in d.fs {
      var up := if Parent(folder) in d.fs then Step(d, true) else MkdirsVia(d, Parent(folder), prefix);
      if Parent(folder) !in d.fs {
        MkdirsViaFrame(d, Parent(folder), prefix);
      }
      if up.ok {
        MkdirViaFrame(up.disk, folder, prefix);
        assert folder[..|folder|] == folder;
      }
      forall q | !(q <= folder) && !StagingAlong(q, folder, prefix)
        ensures Get(up.disk.fs, q) == Get(d.fs, q)
      {
        AlongParent(q, folder, prefix);
      }
    }
  }

  /**
   mkdirsVia returning true: `folder` exists and every proper ancestor is a
   directory; if `folder` was absent, it is now a directory.
   */
  lemma {:induction false} MkdirsViaCreates(d: Disk, folder: Path, prefix: string)
    requires WellFormed(d.fs) && MkdirsVia(d, folder, prefix).ok
    ensures var r := MkdirsVia(d, folder, prefix).disk.fs;
            folder in r && forall k | 0 <= k < |folder| :: IsDir(r, folder[..k])
    ensures folder !in d.fs ==> IsDir(MkdirsVia(d, folder, prefix).disk.fs, folder)
    ensures prefix != "" ==> forall k | 0 < k <= |folder| && folder[..k] !in d.fs ::
              TempPath(folder[..k], prefix) !in MkdirsVia(d, folder, prefix).disk.fs
    decreases |folder|
  {
    var r := MkdirsVia(d, folder, prefix);
    if prefix != "" {
      MkdirsViaClearsStaging(d, folder, prefix);
    }
    if folder !in d.fs {
      var up := if Parent(folder) in d.fs then Step(d, true) else MkdirsVia(d, Parent(folder), prefix);
      assert up.ok;
      if Parent(folder) !in d.fs {
        MkdirsViaFrame(d, Parent(folder), prefix);
        assert !(folder <= Parent(folder));
        assert !StagingAlong(folder, Parent(folder), prefix);
      }
      assert folder !in up.disk.fs;
      MkdirViaCreates(up.disk, folder, prefix);
    }
    forall k | 0 <= k < |folder| ensures IsDir(r.disk.fs, folder[..k]) {
      AncestorIsDir(r.disk.fs, folder, folder[..k]);
    }
  }

  /** mkdirsVia returning true with a non-empty prefix: no level it created left its staging path behind. */
  lemma {:induction false} MkdirsViaClearsStaging(d: Disk, folder: Path, prefix: string)
    requires WellFormed(d.fs) && prefix != "" && MkdirsVia(d, folder, prefix).ok
    ensures forall k | 0 < k <= |folder| && folder[..k] !in d.fs ::
              TempPath(folder[..k], prefix) !in MkdirsVia(d, folder, prefix).disk.fs
    decreases |folder|
  {
    if folder !in d.fs {
      var up := if Parent(folder) in d.fs then Step(d, true) else MkdirsVia(d, Parent(folder), prefix);
      assert up.ok;
      if Parent(folder) !in d.fs {
        MkdirsViaFrame(d, Parent(folder), prefix);
        assert !(folder <= Parent(folder));
        assert !StagingAlong(folder, Parent(folder), prefix);
        MkdirsViaClearsStaging(d, Parent(folder), prefix);
      }
      assert folder !in up.disk.fs;
      MkdirViaCreates(up.disk, folder, prefix);
      StagingClearedUpward(d.fs, up.disk.fs, MkdirVia(up.disk, folder, prefix).disk.fs, folder, prefix);
    } else {
      forall k | 0 < k < |folder| ensures folder[..k] in d.fs {
        AncestorIsDir(d.fs, folder, folder[..k]);
      }
      assert folder[..|folder|] == folder;
    }
  }

  /** The staging paths of the missing ancestors stay absent when the last level is made through its own. */
  lemma StagingClearedUpward(d: Tree, up: Tree, r: Tree, folder: Path, prefix: string)
    requires WellFormed(d) && folder != [] && folder !in d
    requires Parent(folder) !in d ==> forall k | 0 < k <= |Parent(folder)| && Parent(folder)[..k] !in d ::
               TempPath(Parent(folder)[..k], prefix) !in up
    requires forall q :: q != folder && q != TempPath(folder, prefix) ==> Get(r, q) == Get(up, q)
    requires TempPath(folder, prefix) !in r
    ensures forall k | 0 < k <= |folder| && folder[..k] !in d :: TempPath(folder[..k], prefix) !in r
  {
    forall k | 0 < k <= |folder| && folder[..k] !in d ensures TempPath(folder[..k], prefix) !in r {
      if k == |folder| {
        assert folder[..k] == folder;
      } else {
        assert Parent(folder)[..k] == folder[..k];
        if Parent(folder) in d {
          AncestorIsDir(d, Parent(folder), folder[..k]);
        }
        assert |TempPath(folder[..k], prefix)| < |folder|;
        assert Get(r, TempPath(folder[..k], prefix)) == Get(up, TempPath(folder[..k], prefix));
      }
    }
  }

  /**
   Without injected faults, mkdirsVia creates every missing level of `folder`,
   provided the levels that exist are directories and, at each missing level,
   the name and its staging name are valid and nothing lies below the staging
   path (which holds by itself below the topmost missing level).
   */
  lemma {:induction false} MkdirsViaSucceeds(d: Disk, folder: Path, prefix: string)
    requires WellFormed(d.fs) && FaultFree(d) && prefix != ""
    requires forall k | 0 <= k < |folder| && folder[..k] in d.fs :: IsDir(d.fs, folder[..k])
    requires forall k | 0 < k <= |folder| && folder[..k] !in d.fs ::
               ValidName(folder[k - 1]) && ValidName(prefix + folder[k - 1]) && Childless(d.fs, TempPath(folder[..k], prefix))
    ensures MkdirsVia(d, folder, prefix).ok
    ensures var r := MkdirsVia(d, folder, prefix).disk.fs;
            folder in r && forall k | 0 <= k < |folder| :: IsDir(r, folder[..k])
    ensures folder !in d.fs ==> IsDir(MkdirsVia(d, folder, prefix).disk.fs, folder)
    decreases |folder|
  {
    if folder !in d.fs {
      assert folder != [];
      var parent := Parent(folder);
      assert folder[..|folder|] == folder && folder[..|parent|] == parent;
      var up := if parent in d.fs then Step(d, true) else MkdirsVia(d, parent, prefix);
      if parent !in d.fs {
        forall k | 0 < k <= |parent| ensures parent[..k] == folder[..k] {
        }
        MkdirsViaSucceeds(d, parent, prefix);
        MkdirsViaFrame(d, parent, prefix);
        StagingUntouched(d.fs, up.disk.fs, folder, prefix);
      }
      assert IsDir(up.disk.fs, parent);
      assert Name(folder) == folder[|folder| - 1];
      assert TempPath(folder[..|folder|], prefix) == TempPath(folder, prefix);
      MkdirViaSucceeds(up.disk, folder, prefix);
    }
    MkdirsViaCreates(d, folder, prefix);
  }

  /** The levels above `folder` leave its own staging path alone. */
  lemma StagingUntouched(d: Tree, r: Tree, folder: Path, prefix: string)
    requires folder != [] && Childless(d, TempPath(folder, prefix))
    requires forall q :: !(q <= Parent(folder)) && !StagingAlong(q, Parent(folder), prefix) ==> Get(r, q) == Get(d, q)
    ensures Childless(r, TempPath(folder, prefix))
  {
    var temp := TempPath(folder, prefix);
    forall q | q in r ensures !(temp < q) {
      assert temp < q ==> !(q <= Parent(folder)) && !StagingAlong(q, Parent(folder), prefix);
      assert temp < q ==> Get(r, q) == Get(d, q);
    }
  }

  /**
   mkdirsVia returning false leaves `folder` absent (for a non-empty prefix).
   Without injected faults, no missing level leaves a staging directory behind
   where there was none: the levels made before the failure cleared their own,
   and the failing level deleted the one it had created.
   */
  lemma {:induction false} MkdirsViaFailure(d: Disk, folder: Path, prefix: string)
    requires WellFormed(d.fs) && !MkdirsVia(d, folder, prefix).ok && prefix != ""
    ensures folder !in d.fs && folder !in MkdirsVia(d, folder, prefix).disk.fs
    ensures FaultFree(d) ==> forall k | 0 < k <= |folder| && folder[..k] !in d.fs && TempPath(folder[..k], prefix) !in d.fs ::
              TempPath(folder[..k], prefix) !in MkdirsVia(d, folder, prefix).disk.fs
    decreases |folder|
  {
    if FaultFree(d) {
      MkdirsViaFailureClearsStaging(d, folder, prefix);
    }
    var up := if Parent(folder) in d.fs then Step(d, true) else MkdirsVia(d, Parent(folder), prefix);
    if Parent(folder) !in d.fs {
      MkdirsViaFrame(d, Parent(folder), prefix);
      assert !(folder <= Parent(folder));
      assert !StagingAlong(folder, Parent(folder), prefix);
    }
    if up.ok {
      MkdirViaFailure(up.disk, folder, prefix);
    }
  }

  /** The induction behind the fault-free staging clause of MkdirsViaFailure. */
  lemma {:induction false} MkdirsViaFailureClearsStaging(d: Disk, folder: Path, prefix: string)
    requires WellFormed(d.fs) && FaultFree(d) && prefix != "" && !MkdirsVia(d, folder, prefix).ok
    ensures forall k | 0 < k <= |folder| && folder[..k] !in d.fs && TempPath(folder[..k], prefix) !in d.fs ::
              TempPath(folder[..k], prefix) !in MkdirsVia(d, folder, prefix).disk.fs
    decreases |folder|
  {
    var temp := TempPath(folder, prefix);
    var up := if Parent(folder) in d.fs then Step(d, true) else MkdirsVia(d, Parent(folder), prefix);
    var r := MkdirsVia(d, folder, prefix);
    if Parent(folder) !in d.fs {
      MkdirsViaFrame(d, Parent(folder), prefix);
      assert !(temp <= Parent(folder)) && !StagingAlong(temp, Parent(folder), prefix);
      if up.ok {
        MkdirsViaClearsStaging(d, Parent(folder), prefix);
      } else {
        MkdirsViaFailureClearsStaging(d, Parent(folder), prefix);
      }
    }
    if up.ok {
      MkdirViaFailure(up.disk, folder, prefix);
      if temp !in d.fs {
        MkdirViaFailureClearsOwn(up.disk, folder, prefix);
      }
    }
    StagingKeptAbsentUpward(d.fs, up.disk.fs, r.disk.fs, folder, prefix);
  }

  /** Absent staging paths of the missing levels stay absent when the last level changes only its own. */
  lemma StagingKeptAbsentUpward(d: Tree, up: Tree, r: Tree, folder: Path, prefix: string)
    requires WellFormed(d) && folder != [] && folder !in d
    requires Parent(folder) !in d ==>
               forall k | 0 < k <= |Parent(folder)| && Parent(folder)[..k] !in d && TempPath(Parent(folder)[..k], prefix) !in d ::
                 TempPath(Parent(folder)[..k], prefix) !in up
    requires forall q :: q != TempPath(folder, prefix) ==> Get(r, q) == Get(up, q)
    requires TempPath(folder, prefix) !in d ==> TempPath(folder, prefix) !in r
    ensures forall k | 0 < k <= |folder| && folder[..k] !in d && TempPath(folder[..k], prefix) !in d ::
              TempPath(folder[..k], prefix) !in r
  {
    forall k | 0 < k <= |folder| && folder[..k] !in d && TempPath(folder[..k], prefix) !in d
      ensures TempPath(folder[..k], prefix) !in r
    {
      if k == |folder| {
        assert folder[..k] == folder;
      } else {
        assert Parent(folder)[..k] == folder[..k];
        if Parent(folder) in d {
          AncestorIsDir(d, Parent(folder), folder[..k]);
        }
        assert |TempPath(folder[..k], prefix)| < |folder|;
        assert Get(r, TempPath(folder[..k], prefix)) == Get(up, TempPath(folder[..k], prefix));
      }
    }
  }

  /**
   Without injected faults, a false mkdirVia leaves no staging directory where
   there was none: the one it created is deleted again.
   */
  lemma MkdirViaFailureClearsOwn(d: Disk, folder: Path, prefix: string)
    requires WellFormed(d.fs) && FaultFree(d) && !MkdirVia(d, folder, prefix).ok
    requires folder != [] && TempPath(folder, prefix) !in d.fs
    ensures TempPath(folder, prefix) !in MkdirVia(d, folder, prefix).disk.fs
  {
    var temp := TempPath(folder, prefix);
    if Parent(folder) in d.fs {
      var cleared := Delete(d, temp);
      var made := Mkdir(cleared.disk, temp);
      if made.ok {
        var moved := Rename(made.disk, temp, folder);
        assert FaultFree(moved.disk);
        MkdirViaRemovesStaging(d, folder, prefix);
      }
    }
  }
}

=== FILE: walker.dfy ===
/**
 FileUtil.getRecursiveFileList and getRecursiveFileListNoSort: a depth-first
 walk below a directory of the Fs model, followed by a sort of the listed
 path strings.
 */
module Walker {
  import opened Results
  import opened Fs
  import Lex
  import Seqs
  import PathNames

  /** Thrown by getRecursiveFileList as FileNotFoundException. */
  datatype Error = FileNotFound(message: string)

  /** The absolute path string of a path: "/" for the root, "/a/b" below it. */
  function Render(q: Path): (s: string)
    ensures |s| > 0 && s[0] == PathNames.Separator
  {
    if q == [] then [PathNames.Separator] else RenderBelow(q)
  }

  /** "/" followed by each segment, joined by "/"; empty for the root. */
  function RenderBelow(q: Path): (s: string)
    ensures q == [] <==> s == ""
    ensures q != [] ==> s[0] == PathNames.Separator
  {
    if q == [] then "" else RenderBelow(Parent(q)) + [PathNames.Separator] + Name(q)
  }

  predicate NamesValid(q: Path)
  {
    forall i | 0 <= i < |q| :: ValidName(q[i])
  }

  /** Every segment of a present path is a valid name. */
  lemma {:induction false} PresentNamesValid(fs: Tree, q: Path)
    requires WellFormed(fs) && q in fs
    ensures NamesValid(q)
    decreases |q|
  {
    if q != [] {
      PresentNamesValid(fs, Parent(q));
      assert q == Parent(q) + [Name(q)];
    }
  }

  /** Distinct paths of valid names render to distinct strings. */
  lemma {:induction false} RenderInjective(a: Path, b: Path)
    requires NamesValid(a) && NamesValid(b) && RenderBelow(a) == RenderBelow(b)
    ensures a == b
    decreases |a|
  {
    if a != [] {
      var x, y := RenderBelow(Parent(a)), RenderBelow(Parent(b));
      PathNames.ParentOfChild(x, Name(a));
      PathNames.ParentOfChild(y, Name(b));
      assert x == y;
      var s := RenderBelow(a);
      assert Name(a) == s[|x| + 1..] == Name(b);
      assert NamesValid(Parent(a)) && NamesValid(Parent(b));
      RenderInjective(Parent(a), Parent(b));
      assert a == Parent(a) + [Name(a)] && b == Parent(b) + [Name(b)];
    }
  }

  /** What getRecursiveFileList lists below `p`: every node when directories are included, else every file. */
  predicate Listed(fs: Tree, p: Path, includeDirs: bool, q: Path)
  {
    q in fs && p < q && (includeDirs || fs[q].File?)
  }

  /**
   FileUtil.getRecursiveFileListNoSort: for each entry of `p` in listing order,
   the entry itself (a file, or a directory when requested) followed by
   everything listed below it.
   */
  function ListNoSort(fs: Tree, p: Path, includeDirs: bool): (r: seq<Path>)
    requires WellFormed(fs) && IsDir(fs, p)
    ensures forall q :: q in r <==> Listed(fs, p, includeDirs, q)
    ensures Seqs.Distinct(r)
    decreases |Descendants(fs, p)|, 1
  {
    var names := ListFiles(fs, p);
    forall q | Listed(fs, p, includeDirs, q) ensures q[|p|] in names {
      ChildPresent(fs, p, q);
    }
    ListEntries(fs, p, names, includeDirs)
  }

  /** The loop body of getRecursiveFileListNoSort over the remaining entries `names` of `p`. */
  function ListEntries(fs: Tree, p: Path, names: seq<string>, includeDirs: bool): (r: seq<Path>)
    requires WellFormed(fs) && IsDir(fs, p) && Seqs.Distinct(names)
    requires forall n | n in names :: p + [n] in fs
    ensures forall q :: q in r <==> Listed(fs, p, includeDirs, q) && q[|p|] in names
    ensures Seqs.Distinct(r)
    decreases |Descendants(fs, p)|, 0, |names|
  {
    if names == [] then
      []
    else
      var c := p + [names[0]];
      var here := if fs[c].Dir? && !includeDirs then [] else [c];
      var deeper := if fs[c].Dir? then DescendantsOfChild(fs, p, c); ListNoSort(fs, c, includeDirs) else [];
      var rest := ListEntries(fs, p, names[1..], includeDirs);
      EntryListing(fs, p, c, here, deeper, includeDirs);
      Seqs.DistinctConcat(here, deeper);
      EntriesCombine(fs, p, names, includeDirs, here + deeper, rest);
      here + deeper + rest
  }

  /** The listing under the first name, followed by the listing under the other names. */
  lemma EntriesCombine(fs: Tree, p: Path, names: seq<string>, includeDirs: bool, first: seq<Path>, rest: seq<Path>)
    requires names != [] && Seqs.Distinct(names) && Seqs.Distinct(first) && Seqs.Distinct(rest)
    requires forall q :: q in first <==> Listed(fs, p, includeDirs, q) && q[|p|] == names[0]
    requires forall q :: q in rest <==> Listed(fs, p, includeDirs, q) && q[|p|] in names[1..]
    ensures forall q :: q in first + rest <==> Listed(fs, p, includeDirs, q) && q[|p|] in names
    ensures Seqs.Distinct(first + rest)
  {
    forall q | q in rest ensures q !in first {
      assert q[|p|] in names[1..];
    }
    Seqs.DistinctConcat(first, rest);
    assert names == [names[0]] + names[1..];
  }

  /** The entry `c` and what is listed below it are exactly what is listed under `c`'s name. */
  lemma EntryListing(fs: Tree, p: Path, c: Path, here: seq<Path>, deeper: seq<Path>, includeDirs: bool)
    requires WellFormed(fs) && c in fs && |c| == |p| + 1 && c[..|p|] == p
    requires here == if fs[c].Dir? && !includeDirs then [] else [c]
    requires fs[c].Dir? ==> forall q :: q in deeper <==> Listed(fs, c, includeDirs, q)
    requires fs[c].File? ==> deeper == []
    ensures forall q :: q in here + deeper <==> Listed(fs, p, includeDirs, q) && q[|p|] == c[|p|]
  {
    forall q | Listed(fs, p, includeDirs, q) && q[|p|] == c[|p|] ensures q in here + deeper {
      EntryOrBelow(fs, p, c, q, includeDirs);
    }
    forall q | q in here + deeper ensures Listed(fs, p, includeDirs, q) && q[|p|] == c[|p|] {
      if q in deeper {
        assert Listed(fs, c, includeDirs, q);
      }
    }
  }

  /** A path listed below `p` under the name of `c` is `c` itself or lies below the directory `c`. */
  lemma EntryOrBelow(fs: Tree, p: Path, c: Path, q: Path, includeDirs: bool)
    requires WellFormed(fs) && c in fs && |c| == |p| + 1 && c[..|p|] == p
    requires Listed(fs, p, includeDirs, q) && q[|p|] == c[|p|]
    ensures q == c || (fs[c].Dir? && Listed(fs, c, includeDirs, q))
  {
    assert q[..|p| + 1] == c;
    if q != c {
      AncestorIsDir(fs, q, c);
    }
  }

  /** The path strings of `ps`, in order. */
  function RenderAll(ps: seq<Path>): (r: seq<string>)
    ensures |r| == |ps| && forall i | 0 <= i < |ps| :: r[i] == Render(ps[i])
  {
    seq(|ps|, i requires 0 <= i < |ps| => Render(ps[i]))
  }

  /**
   FileUtil.getRecursiveFileList: FileNotFoundException unless `root` is a
   readable directory; otherwise every listed path string below it, sorted.
   Readability is a parameter because permissions are not part of Fs.
   */
  function GetRecursiveFileList(fs: Tree, root: Path, readable: bool, includeDirs: bool): (r: Result<seq<string>, Error>)
    requires WellFormed(fs)
    ensures r.Err? <==> !IsDir(fs, root) || !readable
    ensures r.Err? ==> r.error == FileNotFound("Invalid directory " + Render(root))
    ensures r.Ok? ==> Lex.StrictlySorted(r.value)
    ensures r.Ok? ==> forall q | Listed(fs, root, includeDirs, q) :: Render(q) in r.value
    ensures r.Ok? ==> forall s | s in r.value :: exists q :: Listed(fs, root, includeDirs, q) && Render(q) == s
  {
    if !IsDir(fs, root) || !readable then
      Err(FileNotFound("Invalid directory " + Render(root)))
    else
      var ps := ListNoSort(fs, root, includeDirs);
      var names := RenderAll(ps);
      RenderAllDistinct(fs, root, includeDirs, ps, names);
      Lex.SortStrict(names);
      var sorted := Lex.Sort(names);
      SortKeepsElements(names, sorted);
      RenderedListing(fs, root, includeDirs, ps, sorted);
      Ok(sorted)
  }

  /**
   The one-argument FileUtil.getRecursiveFileList: directories are not listed,
   so the result is exactly the files below `root`.
   */
  function GetRecursiveFileListFilesOnly(fs: Tree, root: Path, readable: bool): (r: Result<seq<string>, Error>)
    requires WellFormed(fs)
    ensures r.Err? <==> !IsDir(fs, root) || !readable
    ensures r.Ok? ==> forall q | q in fs && root < q && fs[q].File? :: Render(q) in r.value
    ensures r.Ok? ==> forall s | s in r.value :: exists q :: q in fs && root < q && fs[q].File? && Render(q) == s
  {
    GetRecursiveFileList(fs, root, readable, false)
  }

  /** The path strings of the listed paths are exactly the rendered listing. */
  lemma RenderedListing(fs: Tree, root: Path, includeDirs: bool, ps: seq<Path>, sorted: seq<string>)
    requires forall q :: q in ps <==> Listed(fs, root, includeDirs, q)
    requires forall x :: x in sorted <==> x in RenderAll(ps)
    ensures forall q | Listed(fs, root, includeDirs, q) :: Render(q) in sorted
    ensures forall s | s in sorted :: exists q :: Listed(fs, root, includeDirs, q) && Render(q) == s
  {
    var names := RenderAll(ps);
    forall q | Listed(fs, root, includeDirs, q) ensures Render(q) in sorted {
      var i :| 0 <= i < |ps| && ps[i] == q;
      assert names[i] == Render(q);
    }
    forall s | s in sorted ensures exists q :: Listed(fs, root, includeDirs, q) && Render(q) == s {
      var i :| 0 <= i < |names| && names[i] == s;
      assert ps[i] in ps;
    }
  }

  lemma SortKeepsElements(s: seq<string>, r: seq<string>)
    requires multiset(r) == multiset(s)
    ensures forall x :: x in r <==> x in s
  {
    forall x ensures x in r <==> x in s {
      assert x in r <==> x in multiset(r);
      assert x in s <==> x in multiset(s);
    }
  }

  /** Distinct listed paths render to distinct strings. */
  lemma RenderAllDistinct(fs: Tree, root: Path, includeDirs: bool, ps: seq<Path>, names: seq<string>)
    requires WellFormed(fs) && Seqs.Distinct(ps)
    requires forall q | q in ps :: Listed(fs, root, includeDirs, q)
    requires names == RenderAll(ps)
    ensures Seqs.Distinct(names)
  {
    forall i, j | 0 <= i < j < |names| ensures names[i] != names[j] {
      var a, b := ps[i], ps[j];
      assert a in ps && b in ps;
      PresentNamesValid(fs, a);
      PresentNamesValid(fs, b);
      if RenderBelow(a) == RenderBelow(b) {
        RenderInjective(a, b);
      }
    }
  }

  /**
   The listing is determined by the tree alone: it is the ascending sequence of
   the listed path strings, whatever order directory entries are enumerated in.
   */
  lemma FileListIsSortedSet(fs: Tree, root: Path, readable: bool, includeDirs: bool)
    requires WellFormed(fs)
    requires GetRecursiveFileList(fs, root, readable, includeDirs).Ok?
    ensures GetRecursiveFileList(fs, root, readable, includeDirs).value
              == Lex.SortedElements(set q | q in fs && Listed(fs, root, includeDirs, q) :: Render(q))
  {
    var r := GetRecursiveFileList(fs, root, readable, includeDirs).value;
    var want := set q | q in fs && Listed(fs, root, includeDirs, q) :: Render(q);
    var e := Lex.SortedElements(want);
    forall x ensures x in r <==> x in e {
      if x in r {
        var q :| Listed(fs, root, includeDirs, q) && Render(q) == x;
        assert x in want;
      }
    }
    Lex.StrictlySortedUnique(r, e);
  }
}
